=== FILE: README.md ===
# packobjecthook capture and report, in Dafny

packobjecthook wraps a command (in practice git's `pack-objects` hook). The
wrapper, `main.go`, runs the command and passes its stdin, stdout and stderr
through. For each run it appends one record to a capture file:

```
<time> <args> | <stdin with newlines as spaces> out=<bytes> err=<bytes> exit=<code>
```

The capture file's name is the hex SHA-256 of the invocation line plus the
raw stdin, so runs with the same input share a file. `report.py` later reads
every capture file in a directory and summarises the records. It reports:

- requests counted, filtered by a stdin limit, and exiting non-zero;
- cache hits and misses, judged against each file's first counted record;
- the largest stdout;
- the distinct stderr lengths;
- the files whose stdout length varies by more than 10%.

The model is functional. Strings are sequences of Unicode code points and
output chunks are byte sequences. Go's `int64` counters wrap explicitly.
The parts that touch the outside world are parameters:

- the child process is a function from the stdin it receives to its outcome and output chunks;
- SHA-256 is a function onto 32-byte digests;
- the RFC 3339 time stamp is a string over the layout's characters;
- `datetime.strptime` is a function giving seconds or failing;
- the environment and the capture directory are a map and a store of file contents;
- `os.listdir` is a sequence of (name, content) pairs.

Modules, one per file:

- `Common`: bytes, `Option`, `Result` and concatenation.
- `GoStrings`: `strings.TrimSpace`, `strings.Join`, `%d` and `hex.EncodeToString`.
- `PyStrings`: `split(" ")`, `index`, `replace`, `rstrip`, `int()` and text-mode `readline`.
- `Streams`: `WriteCounter`, `io.MultiWriter` and `io.Copy`.
- `Capture`: `runcmd` and `main` of main.go.
- `LogParse`: `parseLine`.
- `Report`: the loop in report.py's `main`.
- `RoundTrip`: the record main.go writes, as report.py reads it back.

Three facts about the two programs together are proved (`RoundTrip`).

- **The time stamps do not match.** main.go writes a single time stamp.
  `parseLine` reads the first two words as start and end time, so the "end
  time" is the command's first word (`git` in practice). Unless the supplied
  time parser accepts that word, every record main.go writes raises a
  ValueError in report.py.
- **`stdin_len` is 3 more than the stdin length.** It is measured from the
  `|` to `out=`, so it counts the `"| "` before stdin and the space after
  it. It is also counted in characters, while the `out=`/`err=` counts are
  in bytes.
- **A carriage return in stdin splits the record.** main.go flattens only
  `\n`. Python's universal newlines also end a line at `\r`. The first part
  then has no `out=`, and parsing it raises a ValueError.

## Model

| member | source | states |
|---|---|---|
| Streams.CounterWrite | main.go:26-30 | `Write` accepts the whole slice without error (n = len(p)). It adds len(p) to `Total` exactly while that fits in int64; the result is always an int64 and congruent to the true sum modulo 2^64. |
| Streams.WrapInt64 | main.go:20 | The int64 value of an integer: in range, congruent modulo 2^64, and unchanged when already in range. |
| Streams.WrapAdd | main.go:28 | Wrapping after every addition is the same as wrapping once at the end. So `Total` after many writes is the wrapped sum of their lengths. |
| Streams.SinkWrite | main.go:38-49 | A buffer sink appends the bytes. A counter sink adds their wrapped length. Neither fails or writes short. |
| Streams.SinkWriteTwice | main.go:26-30 | Two writes to a sink equal one write of the two slices joined. |
| Streams.MultiWrite | main.go:39 | `io.MultiWriter` hands every sink the whole slice, because no sink fails. |
| Streams.Copy | main.go:39 | `io.Copy` through the tee leaves every sink as if it had received the whole stream in one write, however the reads chunk it. |
| GoStrings.Join | main.go:35 | `strings.Join` of one element is that element, and the first element starts the result. |
| GoStrings.TrimSpace | main.go:35 | The result is the slice of the input between the leading and trailing white space. A non-empty result starts and ends with a non-space. It is empty exactly when the input is all white space. |
| GoStrings.TrimSpaceKeeps | main.go:35 | A string without leading or trailing white space is its own trim. |
| GoStrings.NatText | main.go:62 | `%d` of a natural number is non-empty and all digits, with no leading zero. It is `"0"` exactly for 0. |
| GoStrings.DecimalText | main.go:55 | `strconv.Itoa` and `%d` give digits with a leading `-` exactly for negative numbers. |
| GoStrings.HexEncode | main.go:43 | `hex.EncodeToString` gives two lower-case hex digits per byte. |
| GoStrings.HexRoundTrip | main.go:43 | Hex decoding recovers the digest, so distinct digests give distinct file names. |
| Capture.InvocationText | main.go:35 | The hashed and logged invocation has no white space at either end. |
| Capture.Flatten | main.go:41 | `ReplaceAll(stdin, "\n", " ")` keeps the length and changes each `\n` to a space and nothing else, so no `\n` remains. |
| Capture.ExitText | main.go:51-59 | The exit text is `"0"` for success and the decimal code for an `*exec.ExitError`. It is `"?"` exactly for any other error. |
| Capture.RecordText | main.go:62 | The record begins with the time stamp and a space. |
| Capture.LogLine | main.go:62 | The line written is the record followed by exactly one `\n`. |
| Capture.TeeStdin | main.go:36-40 | Both stdin buffers receive the concatenated stdin. The digest's input is the invocation line, `\n`, then that stdin. |
| Capture.TeeOutput | main.go:45-49 | The terminal receives the child's output whole. The counter holds its int64 length. |
| Capture.RunCmd | main.go:32-67 | The child gets exactly the stdin that was hashed. The preimage is `TrimSpace(Join(args," ")) + "\n" + stdin`, and the key is the hex of its digest: 64 lower-hex characters. Output reaches the terminal whole. The log line carries the flattened stdin, the int64 byte totals and the exit text. |
| Capture.CountsExact | main.go:45-49 | Below 2^63 bytes, `out=` and `err=` are the exact byte totals. |
| Capture.SameInputSameKey | main.go:35-43 | The same invocation line and stdin give the same key, whatever the stamp or chunking. |
| Capture.HashedSplits | main.go:35-39 | When the invocation has no newline, the digest input determines the invocation and stdin. |
| Capture.NewlineInArgumentsCollides | main.go:35-39 | `["a\nb"]` with stdin `c` and `["a"]` with stdin `b\nc` hash the same input and share a file. |
| Capture.SedScenario | main.go:35-40 | `sed -e s/world/git/g` fed `hello world` hashes `"sed -e s/world/git/g\nhello world"`, and the child gets `hello world`. |
| Capture.AppendLine | main.go:61-63 | Appending adds the line at the end of that key's file and creates it if absent. No other file changes. |
| Capture.Validate | main.go:73-85 | Validation succeeds exactly when there is a command, `CAPTURED_DIR` is set and the directory can be created. It reports the first failing check in order: no command gives `NoCommand`, an unset variable gives `DirNotSet`, and a failed `MkdirAll` gives `DirNotCreated` of that directory. |
| Capture.FatalMessageNames | main.go:74-85 | The three fatal messages are pairwise different, and the `MkdirAll` message determines the directory it names. |
| Capture.ExitStatus | main.go:93-104 | The wrapper's status is 0 on success, the child's code on `*exec.ExitError`, and 1 otherwise. |
| Capture.Wrapper | main.go:69-105 | A failed check prints its message and a newline on stderr and exits 1, with no child and an untouched store. Otherwise the child runs on the hashed stdin. Its line is appended under its key when the file opens, and the status is `ExitStatus` of the child's outcome. |
| Capture.Status | main.go:74-104 | The status after a failed check is 1. It is 0 exactly when the child ran and reported success (or an exit code of 0). |
| PyStrings.Split | report.py:24 | `split(" ")` gives at least one piece and no piece holds a space. Text without a space is one piece. |
| PyStrings.SplitAppend | report.py:24 | Splitting `a + " " + b` gives the pieces of `a` followed by those of `b`. |
| PyStrings.Find | report.py:29-30 | `index` gives the first occurrence. It fails exactly when the pattern does not occur. |
| PyStrings.RemoveAll | report.py:32-35 | `replace(pat, "")` never lengthens the text, and an empty pattern removes nothing. |
| PyStrings.RemoveAllAt | report.py:32-35 | At the first occurrence, `replace(pat, "")` keeps the text before it, drops the occurrence and carries on right after it. |
| PyStrings.RemoveAllNone | report.py:32-35 | Text in which the pattern never occurs comes back unchanged. |
| PyStrings.RemoveAllLeading | report.py:32-35 | A counter token, the pattern followed by text without it, loses the pattern and keeps the rest. |
| PyStrings.RemoveAllAbsent | report.py:32-35 | `replace(pat, "")` leaves text unchanged when the pattern's first character never appears. |
| PyStrings.PyInt | report.py:32-35 | `int()` of a run of digits is their value. A negative result comes only from a leading `-`. It succeeds exactly on one or more digits, optionally after a `-` or `+`; anything else is a ValueError. |
| PyStrings.RStrip | report.py:63 | `rstrip()` gives a prefix that does not end in white space. Everything it removed is white space. |
| PyStrings.SplitLine | report.py:63 | `readline` gives a prefix without `\n` or `\r` and consumes input. A text without terminators is one whole line. Which terminators end a line is stated by `SplitLineOf`, `SplitLineAtCrLf` and `RoundTrip.SplitLineAtReturn`. |
| PyStrings.SplitLineOf | report.py:63 | A terminator-free line followed by `\n` is read back whole, and reading resumes after it. |
| PyStrings.SplitLineAtCrLf | report.py:63 | A terminator-free line followed by `\r\n` is read back whole, and reading resumes after both characters: universal newlines treat the pair as one line end. |
| PyStrings.FileLines | report.py:63 | Every line the loop sees is non-empty, already stripped, and holds no terminator. |
| PyStrings.StopsAtBlankLine | report.py:63 | A blank line ends the file for the loop. Nothing after it is read. |
| PyStrings.FileLinesOfWritten | report.py:63 | Non-blank terminator-free lines, each written with `\n`, are read back one for one. |
| LogParse.Field | report.py:32-35 | A counter field fails only with ValueError. |
| LogParse.ParseLine | report.py:23-45 | Parsing succeeds exactly when there are three or more pieces, pieces 0 and 1 parse as times, `|` and `out=` occur, and the last three pieces parse as counters after removing `out=`, `err=` and `exit=`. The record's times come from pieces 0 and 1. Its stdin length is `index("out=") - index("|")`. Its stdout, stderr and exit code are those three counters. IndexError is raised exactly when piece 0 parses and either piece 1 is missing, or piece 1, `|` and `out=` are all fine but a third piece is missing. ZeroDivisionError never occurs. |
| LogParse.ParseAll | report.py:63-64 | All lines parse exactly when each one does. The records then correspond one for one. |
| Report.Classify | report.py:66-91 | A non-zero exit is exactly `exit_code != 0`. Counted is exactly exit 0 with no limit or `stdin_len <= limit`. Without a limit, nothing is filtered. |
| Report.Varies | report.py:87-88 | The variation test, in exact arithmetic, raises ZeroDivisionError exactly when the baseline stdout is 0. Otherwise it holds exactly when `10*abs(out-base) > base` with a positive base. |
| Report.RatioAboveTenth | report.py:87 | `d/base > 0.1` in exact arithmetic is the integer test `base > 0 && 10*d > base`. |
| Report.Step | report.py:66-91 | In exact arithmetic, a line's step raises only ZeroDivisionError. Otherwise it adds one to the class counters, lowers no counter or maximum, and drops no set member. It keeps an existing baseline and, without one, takes this record as baseline exactly when the record is counted. |
| Report.FoldRecords | report.py:63-91 | In exact arithmetic, the inner loop raises only ZeroDivisionError. A completed fold classifies each record once and only adds to the tally. It keeps an existing baseline. The `Fold…` lemmas give each counter's exact growth. |
| Report.ScanFile | report.py:63-91 | Reading, parsing and classifying line by line classifies each line once, only adds to the tally and keeps an existing baseline. `ScanIsFold` equates it with the fold over the parsed lines. |
| Report.ReportFrom | report.py:60-91 | The outer loop over the listing, each file starting without a baseline. Its results are stated by `ReportClassified`, `ReportGrows`, `ReportCounts`, `ReportLargest`, `ReportStderr`, `ReportVariations` and `ReportSucceeds`. |
| Report.RunReport | report.py:50-91 | A completed report has classified exactly the lines read. `Totals` relates every counter and set to its reference definition. |
| Report.ReportClassified | report.py:60-91 | Over all files, the class counters together grow by exactly the lines read. |
| Report.ReportGrows | report.py:60-91 | No counter or maximum falls, and no set member is dropped, over the whole listing. |
| Report.ScanCompletes | report.py:60-88 | One file gets through the outer loop exactly when all its lines parse and its baseline's stdout is not 0. |
| Report.ClassesPartition | report.py:66-91 | Every record is in exactly one class. Without a limit, none is filtered. |
| Report.FoldCounts | report.py:66-91 | Over a file, each counter grows by the number of records of its class. |
| Report.FoldCache | report.py:72-77 | The first counted record becomes the baseline. Every later counted record is a hit exactly when it starts strictly after the baseline ended, and a miss otherwise. |
| Report.FoldHitsPlusMisses | report.py:72-77 | Hits plus misses grow by the counted records minus the one that became the baseline. |
| Report.FoldLargest | report.py:79-80 | The largest stdout never falls and bounds every counted stdout. It changes only to a counted value. |
| Report.FoldStderr | report.py:85 | The stderr set gains exactly the counted stderr lengths. |
| Report.FoldVariations | report.py:87-88 | The file is added exactly when some counted stdout, the baseline's own included, strays more than 10% from the baseline's. No other name is added. |
| Report.FoldSucceeds | report.py:72-88 | A file's fold raises exactly when its first counted record has stdout length 0. |
| Report.ScanIsFold | report.py:63-64 | Parsing each line just before classifying it equals folding over the parsed records. It succeeds only if every line parses. |
| Report.ReportClasses | report.py:66-91 | Over all files, `exit_nonzeroes`, `filtered_requests` and `total_requests` each grow by exactly the number of records of their class in every file. |
| Report.ReportHits | report.py:72-77 | Over all files, `cache_hits` grows by exactly the counted lines after each file's baseline that start after that baseline ended. |
| Report.ReportCounts | report.py:60-91 | Over all files, the three class counters grow by the lines read. `total_requests` grows by the counted records. Hits plus misses grow by the counted records minus one per file with a baseline. Without a limit, filtered stays put. |
| Report.ReportLargest | report.py:60-80 | The largest stdout is the maximum of its start value and all counted stdout lengths. |
| Report.ReportStderr | report.py:60-85 | The stderr patterns are the start set plus exactly the counted stderr lengths. |
| Report.ReportVariations | report.py:60-88 | The variation set is the start set plus exactly the files whose counted stdout strays from that file's baseline. |
| Report.ReportSucceeds | report.py:60-88 | The report completes exactly when every file's lines parse and no file's baseline has stdout length 0. |
| Report.Totals | report.py:50-91 | From zero: the class counters sum to the lines read (the `exit_nonzeroes` denominator). `exit_nonzeroes` and `filtered_requests` are their classes' record counts over all files. Counted requests equal counted records. `cache_hits` is the reference hit count, and hits plus misses equal the counted records minus files with a baseline. With no limit, filtered is 0. The largest stdout is the maximum of 0 and the counted values. The stderr and variation sets are exact. |
| Report.SortedPatterns | report.py:103 | `sorted(stderr_lens)` is strictly ascending and holds exactly the set's elements. |
| RoundTrip.NatTextValue | main.go:62 | The digits `%d` writes for a natural number have that number as their value. |
| RoundTrip.DecimalRoundTrip | report.py:32-35 | `int()` reads back every integer Go's `%d` writes, sign included. |
| RoundTrip.SplitJoin | report.py:24 | Splitting a space-join splits each element in place. |
| RoundTrip.SplitJoinWords | report.py:24 | `split(" ")` undoes a space-join of space-free words. |
| RoundTrip.RecordParts | report.py:24-27 | A record's pieces start with the stamp and then the command's first word. They end with `out=`, `err=` and `exit=` and the texts main.go wrote. |
| RoundTrip.RecordBar | report.py:29 | `index("|")` on a record is just after the invocation, when the invocation has no `\|`. |
| RoundTrip.RecordOut | report.py:30 | `index("out=")` is just after the flattened stdin when neither the invocation nor stdin contains `out=`. |
| RoundTrip.CounterFields | report.py:32-35 | The `out=` and `err=` fields read back as the counts written. The `exit=` field reads back as the wrapper's own exit status, or raises ValueError for `?`. |
| RoundTrip.ReadRecord | report.py:23-45 | `parseLine` of a record gives the times parsed from the stamp and the command's first word. It gives stdin length `len(stdin)+3` and the written counts and status, and fails with ValueError otherwise. |
| RoundTrip.ParseRecord | report.py:23-45 | The same result, case by case. It is a ValueError when either time word does not parse, a ValueError for `exit=?`, and otherwise the record main.go had. |
| RoundTrip.RecordIsOneLine | main.go:62 | A record is one line for `readline` when the invocation has no `\n` or `\r` and stdin has no `\r`. |
| RoundTrip.FileReadsBack | report.py:63 | A capture file of such records reads back as exactly those records, in order. |
| RoundTrip.LogLineIsOneLine | main.go:62 | A written log line is read back by report.py as exactly one line, its record. |
| RoundTrip.LogLineReadsBack | main.go:62 | A written log line reads back as its record, and that record parses as in `ReadRecord`, with stdin length `len(stdin)+3`. |
| RoundTrip.CaptureLineReadsBack | main.go:32-67 | The record of any capture written as `runcmd` writes it is one line for report.py. It parses to the wrapped byte counts, `len(stdin)+3` for the stdin the child received, and `ExitStatus` of the outcome, or fails with ValueError. |
| RoundTrip.CaptureReadsBack | main.go:32-67 | One wrapped run's line is one line for report.py. It parses to the wrapped byte counts, `len(stdin)+3` for the stdin the child received (all of the wrapper's stdin, by `Capture.RunCmd`) and `ExitStatus` of the outcome, or fails with ValueError. |
| RoundTrip.SplitLineAtReturn | report.py:63 | A lone `\r` ends the line that `readline` returns. |
| RoundTrip.CarriageReturnBreaksRecord | main.go:41 | With stdin `a\rb`, the first line report.py reads ends at `a` with no counters, and `parseLine` raises ValueError. |

## Left out

- Process plumbing is left out: spawning the child (`exec.Command`, `cmd.Run`), the real stdin, stdout and stderr, `os.Exit`, and the deferred `recover`. The child is a parameter. The live stdout and stderr are the bytes the tee hands on.
- A failing write to the wrapper's own stdout or stderr is left out. In Go it would stop `io.MultiWriter` before the counter and leave the count short. The model's sinks never fail.
- Concurrency between the child's stdout and stderr writers is left out; each stream is modelled on its own.
- SHA-256 is a parameter onto 32-byte digests; only the preimage and the key's shape are modelled.
- `time.Now()` and RFC 3339 formatting are left out; the stamp is a parameter. `datetime.strptime` is a parameter as well.
- Durations (`duration`, `longest_duration`), `percent` and its rounding are left out. So is the ZeroDivisionError that `percent` raises when printing with no counted requests. All are floating-point or printing.
- argparse and printing the summary are left out, including the `' '.join` of an unordered set of file names.
- File-system and environment access (`os.LookupEnv`, `os.MkdirAll`, `os.OpenFile`, `os.listdir`, `open`) is reduced to values: an environment map, a `mkdir` outcome, an `open` outcome, the store of file contents, and the directory listing. I/O errors while reading are left out.
- `path.Join`'s cleaning of the directory name is left out; the store is keyed by file name.
- Non-UTF-8 input is left out. Strings are code-point sequences, so invalid UTF-8 in stdin, and report.py's `UnicodeDecodeError`, are not modelled.
- The `log.Printf` message for a child that could not be run is left out, because it formats Go values with `%v`. `os.Args` is assumed to have the program name, and the OS truncation of `os.Exit`'s status to 8 bits (so -1 after a signal becomes 255) is left out.
- `PyStrings.PyInt`: accepts only an optional sign and ASCII digits. Python's `int()` also allows surrounding white space, underscores between digits and non-ASCII decimal digits. The tokens main.go writes never hold those.
- `PyStrings.PyInt`: accepts digit runs of any length. Since CPython 3.11 (and in the 3.7-3.10 security releases), `int()` raises ValueError on more than 4300 decimal digits by default, through `sys.set_int_max_str_digits`. The limit depends on the interpreter and its settings. main.go writes at most 19 digits per counter, from an int64. `LogParse.ParseLine`, `Report.ScanCompletes` and `Report.ReportSucceeds` inherit this.
- `LogParse.ParseLine`: its success condition inherits `PyStrings.PyInt`'s missing 4300-digit limit. A counter token of more than 4300 digits parses in the model, but raises ValueError at report.py:32-35 on CPython 3.11 and later.
- `GoStrings.Join`: its contract states only the one-element case and the leading element. The full shape is stated by `RoundTrip.SplitJoin`.
- `Capture.RecordText`: its contract states only the leading time stamp. The layout is stated by `RoundTrip.RecordParts`, `RoundTrip.RecordBar` and `RoundTrip.RecordOut`.
- `Report.Step`: its contract states the exception kind, the one-line class increment, monotonicity and the baseline. Which counter grows, and the hit/miss/variation decisions, are stated over whole files by the `Report.Fold…` lemmas.
- `Report.Varies`: divides exactly where report.py divides floats. The two tests can disagree once the baseline stdout reaches about 10^16. For a baseline of 99999999999999999 and a stdout of 109999999999999999, both below 2^63, the float quotient rounds to 0.1 and is not above it, yet the exact test says the file varies. Float rounding is not modelled. `Report.RatioAboveTenth`, `Report.FoldVariations`, `Report.ReportVariations` and `Report.Totals` inherit this.
- `Report.Varies`: does not model the OverflowError report.py:87 raises when the int/int true division's quotient exceeds the float range, for example a baseline of 1 and a stdout of 400 digits. main.go writes stdout from an int64, so its logs never reach this. `Report.Step`, `Report.FoldRecords`, `Report.FoldSucceeds`, `Report.ScanCompletes` and `Report.ReportSucceeds` inherit this.
- `Report.Step`: "raises only ZeroDivisionError" holds in exact arithmetic. The float OverflowError of report.py:87 is left out, as under `Report.Varies`.
- `Report.FoldRecords`: "raises only ZeroDivisionError" holds in exact arithmetic. The float OverflowError of report.py:87 is left out, as under `Report.Varies`.
- `Report.FoldSucceeds`: its "raises exactly when" condition leaves out the OverflowError of report.py:87.
- `Report.ScanCompletes`: its "completes exactly when" condition leaves out the OverflowError of report.py:87 and `int()`'s 4300-digit limit (see `PyStrings.PyInt`).
- `Report.ReportSucceeds`: its "completes exactly when" condition leaves out the OverflowError of report.py:87 and `int()`'s 4300-digit limit (see `PyStrings.PyInt`).
- `Report.ReportFrom`: carries no contract of its own. Stating the line count and monotonicity on the recursive function made the report-level proofs too expensive, so they are separate lemmas.
- `LogParse.Field`: its contract states only its failure kind. What it reads back is stated by `RoundTrip.CounterFields`.
- `Report.Classify`: the stdin limit is the parsed `--stdin-limit` integer; argparse's handling of a malformed option is left out.

=== FILE: capture.dfy ===
/**
 The pure core of main.go: how one wrapped run turns into a capture record.
 `runcmd` buffers stdin through a tee into the child's input, a second copy,
 and the digest; counts the child's stdout and stderr on their way to the
 terminal; and appends one log line to the file named by the digest.
 `main` validates its arguments and environment first and maps the run's
 outcome to its own exit status.

 Process spawning, the terminal, the clock and SHA-256 are parameters: the
 child is a function from the stdin it receives to what it does, the time
 stamp is a string, and the digest is any function onto 32-byte values.
 */
module Capture {
  import opened Common
  import opened GoStrings
  import opened Streams

  /** A SHA-256 digest. */
  type Digest = d: seq<byte> | |d| == 32 witness seq(32, _ => 0 as byte)

  /** How `cmd.Run()` returned. */
  datatype RunOutcome =
    | Succeeded                    // nil error
    | ExitError(code: int)         // *exec.ExitError; ExitCode() is -1 after a signal
    | OtherError(message: string)  // the child could not be started or wired up

  /** What the child does when run: its outcome and the chunks it writes. */
  datatype ChildRun = ChildRun(outcome: RunOutcome, stdout: seq<seq<byte>>, stderr: seq<seq<byte>>)

  /** The invocation as it is hashed and logged: arguments space-joined, then trimmed. */
  function InvocationText(args: seq<string>): (r: string)
    ensures |r| == 0 || (!IsGoSpace(r[0]) && !IsGoSpace(r[|r| - 1]))
  {
    TrimSpace(Join(args, " "))
  }

  /** `strings.ReplaceAll(stdin, "\n", " ")`: stdin on one line. */
  function Flatten(s: string): (r: string)
    ensures |r| == |s|
    ensures '\n' !in r
    ensures forall i :: 0 <= i < |s| ==> r[i] == (if s[i] == '\n' then ' ' else s[i])
  {
    if |s| == 0 then ""
    else [if s[0] == '\n' then ' ' else s[0]] + Flatten(s[1..])
  }

  /** The characters Go's RFC 3339 layout can produce. */
  predicate IsStampChar(c: char) {
    IsDecimalDigit(c) || c == '-' || c == ':' || c == '+' || c == 'T' || c == 'Z'
  }

  predicate IsStamp(stamp: string) {
    forall i :: 0 <= i < |stamp| ==> IsStampChar(stamp[i])
  }

  /** The text logged after `exit=`: `"0"`, the child's code, or `"?"`. */
  function ExitText(o: RunOutcome): (r: string)
    ensures r == "?" <==> o.OtherError?
    ensures o.Succeeded? ==> r == "0"
    ensures o.ExitError? ==> r == DecimalText(o.code)
  {
    match o
    case Succeeded => "0"
    case ExitError(code) => DecimalText(code)
    case OtherError(_) => "?"
  }

  /**
   The record `"%s %s | %s out=%d err=%d exit=%s"`: the time stamp, the
   invocation, a bar, the flattened stdin and the three counters, separated
   by single spaces.
   */
  function RecordText(stamp: string, invocation: string, flat: string, out: int, err: int, exit: string): (r: string)
    ensures |r| > |stamp| && r[..|stamp|] == stamp && r[|stamp|] == ' '
  {
    var counters := "out=" + DecimalText(out) + " " + ("err=" + DecimalText(err) + " " + ("exit=" + exit));
    stamp + " " + (invocation + " " + ("|" + " " + (flat + " " + counters)))
  }

  /** The record and its terminating newline, as one `Fprintf` writes them. */
  function LogLine(stamp: string, invocation: string, flat: string, out: int, err: int, exit: string): (r: string)
    ensures |r| > 0 && r[|r| - 1] == '\n'
    ensures r[..|r| - 1] == RecordText(stamp, invocation, flat, out, err, exit)
  {
    RecordText(stamp, invocation, flat, out, err, exit) + "\n"
  }

  /**
   `io.Copy(io.MultiWriter(&bstdin1, &bstdin2, skey), os.Stdin)` after the
   invocation line went into `skey`: the two buffers and the digest input.
   */
  function TeeStdin(text: string, stdin: seq<string>): (r: (string, string, string))
    ensures r.0 == Concat(stdin) && r.1 == Concat(stdin)
    ensures r.2 == text + "\n" + Concat(stdin)
  {
    var tee := Copy([Buffer([]), Buffer([]), Buffer(text + "\n")], stdin);
    assert [] + Concat(stdin) == Concat(stdin);
    (tee[0].data, tee[1].data, tee[2].data)
  }

  /**
   `io.MultiWriter(os.Stdout, cstdout)` fed the child's chunks: what reaches
   the terminal, and the counter's `Total`.
   */
  function TeeOutput(chunks: seq<seq<byte>>): (r: (seq<byte>, int))
    ensures r.0 == Concat(chunks)
    ensures r.1 == WrapInt64(|Concat(chunks)|)
  {
    var tee := Copy([Buffer([]), Counter(WriteCounter(0))], chunks);
    assert [] + Concat(chunks) == Concat(chunks);
    (tee[0].data, tee[1].wc.total)
  }

  /** Everything one `runcmd` produces. */
  datatype Run = Run(
    key: string,            // the file name: hex of the digest
    hashed: string,         // what the digest was computed over
    childStdin: string,     // what the child was given on stdin
    run: ChildRun,          // what the child did
    liveStdout: seq<byte>,  // what reached the wrapper's stdout
    liveStderr: seq<byte>,  // what reached the wrapper's stderr
    line: string)           // the record appended to the file

  /**
   `runcmd`: the digest is computed over the invocation line and exactly the
   stdin the child receives; the child's output reaches the terminal whole;
   the record's `out=` and `err=` are the int64 byte totals of that output.
   */
  function RunCmd(args: seq<string>, stdin: seq<string>, child: string -> ChildRun,
                  stamp: string, sha: string -> Digest): (r: Run)
    ensures r.childStdin == Concat(stdin)
    ensures r.hashed == InvocationText(args) + "\n" + r.childStdin
    ensures r.key == HexEncode(sha(r.hashed))
    ensures |r.key| == 64 && forall i :: 0 <= i < |r.key| ==> IsLowerHex(r.key[i])
    ensures r.run == child(r.childStdin)
    ensures r.liveStdout == Concat(r.run.stdout) && r.liveStderr == Concat(r.run.stderr)
    ensures r.line == LogLine(stamp, InvocationText(args), Flatten(r.childStdin),
                              WrapInt64(|r.liveStdout|), WrapInt64(|r.liveStderr|), ExitText(r.run.outcome))
  {
    var text := InvocationText(args);
    var tee := TeeStdin(text, stdin);
    var run := child(tee.0);
    var out := TeeOutput(run.stdout);
    var err := TeeOutput(run.stderr);
    var line := LogLine(stamp, text, Flatten(tee.1), out.1, err.1, ExitText(run.outcome));
    Run(HexEncode(sha(tee.2)), tee.2, tee.0, run, out.0, err.0, line)
  }

  /** The byte counts in the record are exact for output below 2^63 bytes. */
  lemma CountsExact(r: Run, stamp: string, args: seq<string>)
    requires r.line == LogLine(stamp, InvocationText(args), Flatten(r.childStdin),
                               WrapInt64(|r.liveStdout|), WrapInt64(|r.liveStderr|), ExitText(r.run.outcome))
    requires |r.liveStdout| < TWO_63 && |r.liveStderr| < TWO_63
    ensures r.line == LogLine(stamp, InvocationText(args), Flatten(r.childStdin),
                              |r.liveStdout|, |r.liveStderr|, ExitText(r.run.outcome))
  {
  }

  /** Same invocation line and same stdin: same digest input, same file. */
  lemma SameInputSameKey(args1: seq<string>, stdin1: seq<string>, args2: seq<string>, stdin2: seq<string>,
                         child: string -> ChildRun, stamp1: string, stamp2: string, sha: string -> Digest)
    requires InvocationText(args1) == InvocationText(args2) && Concat(stdin1) == Concat(stdin2)
    ensures RunCmd(args1, stdin1, child, stamp1, sha).key == RunCmd(args2, stdin2, child, stamp2, sha).key
  {
  }

  /**
   The digest input does not separate the invocation from stdin when the
   invocation itself holds a newline: `["a\nb"]` with stdin `"c"` and `["a"]`
   with stdin `"b\nc"` are hashed identically and share one file.
   */
  lemma NewlineInArgumentsCollides(args1: seq<string>, stdin1: seq<string>, args2: seq<string>, stdin2: seq<string>,
                                   child: string -> ChildRun, stamp: string, sha: string -> Digest)
    requires args1 == ["a\nb"] && stdin1 == ["c"] && args2 == ["a"] && stdin2 == ["b\nc"]
    ensures RunCmd(args1, stdin1, child, stamp, sha).hashed == RunCmd(args2, stdin2, child, stamp, sha).hashed
    ensures RunCmd(args1, stdin1, child, stamp, sha).key == RunCmd(args2, stdin2, child, stamp, sha).key
  {
    TrimSpaceKeeps("a\nb");
    TrimSpaceKeeps("a");
    assert Concat(stdin1) == "c";
    assert Concat(stdin2) == "b\nc";
    HashedOf(args1, stdin1, child, stamp, sha, "a\nb", "c");
    HashedOf(args2, stdin2, child, stamp, sha, "a", "b\nc");
    CollidingText("a\nb", "c", "a", "b\nc");
  }

  lemma CollidingText(t1: string, s1: string, t2: string, s2: string)
    requires t1 == "a\nb" && s1 == "c" && t2 == "a" && s2 == "b\nc"
    ensures t1 + "\n" + s1 == t2 + "\n" + s2
  {
  }

  /** The text before the first newline, and the rest after it. */
  function SplitAtNewline(s: string): (r: (string, string))
    ensures '\n' in s ==> r.0 + "\n" + r.1 == s && '\n' !in r.0
    ensures '\n' !in s ==> r == (s, "")
  {
    if |s| == 0 then ("", "")
    else if s[0] == '\n' then ("", s[1..])
    else
      var (a, b) := SplitAtNewline(s[1..]);
      assert [s[0]] + s[1..] == s;
      ([s[0]] + a, b)
  }

  /**
   When the invocation line holds no newline, the digest input determines
   both halves: the invocation line and the stdin that follows it.
   */
  lemma {:induction false} HashedSplits(text: string, stdin: string)
    requires '\n' !in text
    ensures SplitAtNewline(text + "\n" + stdin) == (text, stdin)
  {
    if |text| > 0 {
      assert (text + "\n" + stdin)[1..] == text[1..] + "\n" + stdin;
      HashedSplits(text[1..], stdin);
      assert [text[0]] + text[1..] == text;
    } else {
      assert (text + "\n" + stdin)[1..] == stdin;
    }
  }

  /**
   The test scenario: `sed -e s/world/git/g` fed `hello world` in one chunk
   hashes `"sed -e s/world/git/g\nhello world"` and hands the child exactly
   `hello world`.
   */
  lemma SedScenario(args: seq<string>, stdin: seq<string>, child: string -> ChildRun, stamp: string, sha: string -> Digest)
    requires args == ["sed", "-e", "s/world/git/g"] && stdin == ["hello world"]
    ensures RunCmd(args, stdin, child, stamp, sha).hashed == "sed -e s/world/git/g\nhello world"
    ensures RunCmd(args, stdin, child, stamp, sha).childStdin == "hello world"
  {
    var text := "sed -e s/world/git/g";
    assert Join(args, " ") == text;
    TrimSpaceKeeps(text);
    assert Concat(stdin) == "hello world";
    HashedOf(args, stdin, child, stamp, sha, text, "hello world");
    SedPreimageText(text, "hello world");
  }

  lemma SedPreimageText(text: string, input: string)
    requires text == "sed -e s/world/git/g" && input == "hello world"
    ensures text + "\n" + input == "sed -e s/world/git/g\nhello world"
  {
  }

  lemma HashedOf(args: seq<string>, stdin: seq<string>, child: string -> ChildRun, stamp: string,
                 sha: string -> Digest, text: string, input: string)
    requires InvocationText(args) == text && Concat(stdin) == input
    ensures RunCmd(args, stdin, child, stamp, sha).hashed == text + "\n" + input
    ensures RunCmd(args, stdin, child, stamp, sha).childStdin == input
  {
  }

  /** The captured files under `CAPTURED_DIR`, by name. */
  type Store = map<string, string>

  /** `os.OpenFile(.., O_APPEND|O_CREATE|O_WRONLY)` and one write: runs accumulate. */
  function AppendLine(store: Store, key: string, line: string): (r: Store)
    ensures key in r && r[key] == (if key in store then store[key] else "") + line
    ensures forall k :: k in store && k != key ==> k in r && r[k] == store[k]
    ensures r.Keys == store.Keys + {key}
  {
    store[key := (if key in store then store[key] else "") + line]
  }

  /** The fatal configuration errors `main` reports before running anything. */
  datatype Fatal = NoCommand | DirNotSet | DirNotCreated(dir: string)

  /** The text `log.Fatalln`/`log.Fatalf` print for each error, without the newline. */
  function FatalMessage(f: Fatal): string {
    match f
    case NoCommand => "No command to execute."
    case DirNotSet => "CAPTURED_DIR not set."
    case DirNotCreated(dir) => "Failed to create CAPTURED_DIR (" + dir + ")."
  }

  /** The message names the error: different errors, or directories, never print the same text. */
  lemma FatalMessageNames(f: Fatal, g: Fatal)
    ensures FatalMessage(f) == FatalMessage(g) <==> f == g
  {
    var m, n := FatalMessage(f), FatalMessage(g);
    if m == n {
      assert m[0] == n[0];
      if f.DirNotCreated? && g.DirNotCreated? {
        var p := |"Failed to create CAPTURED_DIR ("|;
        assert f.dir == m[p..|m| - 2];
        assert g.dir == n[p..|n| - 2];
      }
    }
  }

  /**
   The checks `main` makes in order: a command is given, `CAPTURED_DIR` is
   set (possibly to the empty string), and the directory can be created.
   The result is the capture directory.
   */
  function Validate(args: seq<string>, env: map<string, string>, mkdirOk: string -> bool): (r: Result<string, Fatal>)
    ensures r.Success? <==> |args| > 0 && "CAPTURED_DIR" in env && mkdirOk(env["CAPTURED_DIR"])
    ensures r.Success? ==> r.value == env["CAPTURED_DIR"]
    ensures |args| == 0 ==> r == Failure(NoCommand)
    ensures |args| > 0 && "CAPTURED_DIR" !in env ==> r == Failure(DirNotSet)
    ensures |args| > 0 && "CAPTURED_DIR" in env && !mkdirOk(env["CAPTURED_DIR"])
      ==> r == Failure(DirNotCreated(env["CAPTURED_DIR"]))
  {
    if |args| == 0 then Failure(NoCommand)
    else if "CAPTURED_DIR" !in env then Failure(DirNotSet)
    else
      var dir := env["CAPTURED_DIR"];
      if !mkdirOk(dir) then Failure(DirNotCreated(dir)) else Success(dir)
  }

  /** `log.Fatal` exits with status 1. */
  const FatalStatus: int := 1

  /** The sentinel status when the child's own code is unknown. */
  const RunErrorStatus: int := 1

  /** The status `main` passes to `os.Exit` after a run. */
  function ExitStatus(o: RunOutcome): (code: int)
    ensures o.Succeeded? ==> code == 0
    ensures o.ExitError? ==> code == o.code
    ensures o.OtherError? ==> code == RunErrorStatus
  {
    match o
    case Succeeded => 0
    case ExitError(code) => code
    case OtherError(_) => RunErrorStatus
  }

  /** One invocation of the wrapper. */
  datatype WrapperRun =
    | Aborted(fatal: Fatal, stderr: string)   // reported before any child exists
    | Ran(capture: Run, store: Store)     // the child ran; the store afterwards

  /** The status passed to `os.Exit`: 0 only when the child ran and reported success. */
  function Status(w: WrapperRun): (r: int)
    ensures w.Aborted? ==> r == FatalStatus
    ensures r == 0 <==> w.Ran? && (w.capture.run.outcome.Succeeded? || w.capture.run.outcome == ExitError(0))
  {
    match w
    case Aborted(_, _) => FatalStatus
    case Ran(c, _) => ExitStatus(c.run.outcome)
  }

  /**
   `main`: a failed check prints its message on stderr (`log.SetFlags(0)`
   drops the time prefix) and ends the wrapper with status 1, leaving the
   store untouched and starting no child; otherwise the child runs on the stdin that
   was hashed, its record is appended under its key when the file opens,
   and the wrapper's status is the child's (0, its code, or the sentinel 1).
   */
  function Wrapper(args: seq<string>, env: map<string, string>, mkdirOk: string -> bool, openOk: bool,
                store: Store, stdin: seq<string>, child: string -> ChildRun,
                stamp: string, sha: string -> Digest): (r: WrapperRun)
    ensures r.Aborted? <==> Validate(args, env, mkdirOk).Failure?
    ensures r.Aborted? ==> r.fatal == Validate(args, env, mkdirOk).error && Status(r) == 1
    ensures r.Aborted? ==> r.stderr == FatalMessage(r.fatal) + "\n"
    ensures r.Ran? ==> r.capture == RunCmd(args, stdin, child, stamp, sha)
    ensures r.Ran? && openOk ==> r.store == AppendLine(store, r.capture.key, r.capture.line)
    ensures r.Ran? && !openOk ==> r.store == store
    ensures r.Ran? ==> Status(r) == ExitStatus(child(Concat(stdin)).outcome)
  {
    match Validate(args, env, mkdirOk)
    case Failure(f) => Aborted(f, FatalMessage(f) + "\n")
    case Success(dir) =>
      var c := RunCmd(args, stdin, child, stamp, sha);
      Ran(c, if openOk then AppendLine(store, c.key, c.line) else store)
  }
}

=== FILE: common.dfy ===
/**
 Values shared by the capture writer (main.go) and the report reader
 (report.py): bytes, optional values, results, and chunk concatenation.
 */
module Common {

  /** One byte of a Go byte slice. */
  newtype byte = x: int | 0 <= x < 256

  /** A value that may be absent. */
  datatype Option<+T> = None | Some(value: T)

  /** A value, or the error that prevented computing it. */
  datatype Result<+T, +E> = Success(value: T) | Failure(error: E)

  /** ASCII decimal digit, as accepted by Go's `%d` output and Python's `int()`. */
  predicate IsDecimalDigit(c: char) {
    '0' <= c <= '9'
  }

  /** The chunks of a stream, joined in the order they were delivered. */
  function Concat<T>(chunks: seq<seq<T>>): seq<T>
  {
    if |chunks| == 0 then [] else chunks[0] + Concat(chunks[1..])
  }
}

=== FILE: go_strings.dfy ===
/**
 The pieces of Go's standard library that main.go uses to build a capture
 record's text: `strings.Join`, `strings.TrimSpace`, decimal formatting
 (`strconv.Itoa` and `%d`) and `hex.EncodeToString`, with the inverse of the
 last one as its partner.
 */
module GoStrings {
  import opened Common

  /** Go's `unicode.IsSpace`, the predicate `strings.TrimSpace` trims by. */
  predicate IsGoSpace(c: char) {
    || ('\t' <= c <= '\r')
    || c == ' '
    || c == '\U{85}'
    || c == '\U{A0}'
    || c == '\U{1680}'
    || ('\U{2000}' <= c <= '\U{200A}')
    || c == '\U{2028}'
    || c == '\U{2029}'
    || c == '\U{202F}'
    || c == '\U{205F}'
    || c == '\U{3000}'
  }

  /** `strings.Join(elems, sep)`: the elements with `sep` between neighbours. */
  function Join(elems: seq<string>, sep: string): (r: string)
    ensures |elems| == 1 ==> r == elems[0]
    ensures |elems| > 0 ==> elems[0] <= r
  {
    if |elems| == 0 then ""
    else if |elems| == 1 then elems[0]
    else elems[0] + sep + Join(elems[1..], sep)
  }

  /** Number of leading white-space characters of `s`. */
  function LeadingSpace(s: string): (n: nat)
    ensures n <= |s|
    ensures forall i :: 0 <= i < n ==> IsGoSpace(s[i])
    ensures n < |s| ==> !IsGoSpace(s[n])
  {
    if |s| > 0 && IsGoSpace(s[0]) then 1 + LeadingSpace(s[1..]) else 0
  }

  /** Number of trailing white-space characters of `s`. */
  function TrailingSpace(s: string): (n: nat)
    ensures n <= |s|
    ensures forall i :: |s| - n <= i < |s| ==> IsGoSpace(s[i])
    ensures n < |s| ==> !IsGoSpace(s[|s| - n - 1])
  {
    if |s| > 0 && IsGoSpace(s[|s| - 1]) then 1 + TrailingSpace(s[..|s| - 1]) else 0
  }

  /**
   `strings.TrimSpace(s)`: `s` without its leading and trailing white space.
   The result is a slice of `s`, starts and ends with a non-space character,
   and is empty exactly when `s` is all white space.
   */
  function TrimSpace(s: string): (r: string)
    ensures LeadingSpace(s) + |r| <= |s|
    ensures r == s[LeadingSpace(s)..LeadingSpace(s) + |r|]
    ensures forall i :: LeadingSpace(s) + |r| <= i < |s| ==> IsGoSpace(s[i])
    ensures |r| > 0 ==> !IsGoSpace(r[0]) && !IsGoSpace(r[|r| - 1])
    ensures |r| == 0 <==> forall i :: 0 <= i < |s| ==> IsGoSpace(s[i])
  {
    var lo := LeadingSpace(s);
    var rest := s[lo..];
    var hi := |rest| - TrailingSpace(rest);
    assert |rest| > 0 ==> !IsGoSpace(rest[0]);
    assert hi < |rest| ==> forall i :: hi <= i < |rest| ==> IsGoSpace(rest[i]);
    rest[..hi]
  }

  /** Trimming text that neither starts nor ends with white space leaves it alone. */
  lemma TrimSpaceKeeps(s: string)
    requires |s| == 0 || (!IsGoSpace(s[0]) && !IsGoSpace(s[|s| - 1]))
    ensures TrimSpace(s) == s
  {
    assert LeadingSpace(s) == 0;
    if |s| > 0 {
      assert TrailingSpace(s) == 0;
    }
  }

  /** The character for a decimal digit value. */
  function DigitChar(d: int): (c: char)
    requires 0 <= d < 10
    ensures IsDecimalDigit(c)
  {
    "0123456789"[d]
  }

  /** Decimal digits of a natural number, without leading zeros. */
  function NatText(n: nat): (r: string)
    ensures |r| > 0
    ensures forall i :: 0 <= i < |r| ==> IsDecimalDigit(r[i])
    ensures |r| > 1 ==> r[0] != '0'
    ensures n == 0 <==> r == "0"
  {
    if n < 10 then [DigitChar(n)] else NatText(n / 10) + [DigitChar(n % 10)]
  }

  /** `strconv.Itoa(n)` and `fmt`'s `%d`: a minus sign for negatives, then the digits. */
  function DecimalText(n: int): (r: string)
    ensures |r| > 0
    ensures forall i :: 0 <= i < |r| ==> IsDecimalDigit(r[i]) || (i == 0 && r[i] == '-')
    ensures n < 0 <==> r[0] == '-'
  {
    if n < 0 then "-" + NatText(-n) else NatText(n)
  }

  /** Lower-case hexadecimal digits, as `hex.EncodeToString` writes them. */
  const HexDigits: string := "0123456789abcdef"

  predicate IsLowerHex(c: char) {
    IsDecimalDigit(c) || 'a' <= c <= 'f'
  }

  /** `hex.EncodeToString(d)`: two lower-case digits per byte, high nibble first. */
  function HexEncode(d: seq<byte>): (r: string)
    ensures |r| == 2 * |d|
    ensures forall i :: 0 <= i < |r| ==> IsLowerHex(r[i])
  {
    if |d| == 0 then ""
    else [HexDigits[d[0] as int / 16], HexDigits[d[0] as int % 16]] + HexEncode(d[1..])
  }

  /** The value of one hexadecimal digit; Go's decoder accepts both cases. */
  function HexValue(c: char): (r: Option<int>)
    ensures r.Some? ==> 0 <= r.value < 16
    ensures r.Some? <==> (IsDecimalDigit(c) || 'a' <= c <= 'f' || 'A' <= c <= 'F')
  {
    if '0' <= c <= '9' then Some(c as int - '0' as int)
    else if 'a' <= c <= 'f' then Some(c as int - 'a' as int + 10)
    else if 'A' <= c <= 'F' then Some(c as int - 'A' as int + 10)
    else None
  }

  /** `hex.DecodeString(s)`: fails on odd length or a non-hex character. */
  function HexDecode(s: string): (r: Option<seq<byte>>)
    ensures r.Some? ==> 2 * |r.value| == |s|
    decreases |s|
  {
    if |s| == 0 then Some([])
    else if |s| == 1 then None
    else
      var hi := HexValue(s[0]);
      var lo := HexValue(s[1]);
      var rest := HexDecode(s[2..]);
      if hi.Some? && lo.Some? && rest.Some? then Some([(hi.value * 16 + lo.value) as byte] + rest.value)
      else None
  }

  lemma HexDigitValue(v: int)
    requires 0 <= v < 16
    ensures HexValue(HexDigits[v]) == Some(v)
  {
  }

  lemma NibbleValues(b: byte)
    ensures HexValue(HexDigits[b as int / 16]) == Some(b as int / 16)
    ensures HexValue(HexDigits[b as int % 16]) == Some(b as int % 16)
    ensures (b as int / 16) * 16 + b as int % 16 == b as int
  {
    HexDigitValue(b as int / 16);
    HexDigitValue(b as int % 16);
  }

  /** The two digits a byte is written as read back as that byte. */
  lemma PairValue(b: byte)
    ensures var x, y := HexDigits[b as int / 16], HexDigits[b as int % 16];
      HexValue(x).Some? && HexValue(y).Some? && HexValue(x).value * 16 + HexValue(y).value == b as int
  {
    NibbleValues(b);
  }

  lemma HexDecodePair(x: char, y: char, b: byte, rest: string, tail: seq<byte>)
    requires HexValue(x).Some? && HexValue(y).Some? && HexValue(x).value * 16 + HexValue(y).value == b as int
    requires HexDecode(rest) == Some(tail)
    ensures HexDecode([x, y] + rest) == Some([b] + tail)
  {
    assert ([x, y] + rest)[2..] == rest;
  }

  /** Decoding an encoded digest gives the digest back. */
  lemma {:induction false} HexRoundTrip(d: seq<byte>)
    ensures HexDecode(HexEncode(d)) == Some(d)
  {
    if |d| > 0 {
      HexRoundTrip(d[1..]);
      assert HexEncode(d) == [HexDigits[d[0] as int / 16], HexDigits[d[0] as int % 16]] + HexEncode(d[1..]);
      DecodeEncodedByte(d[0], HexEncode(d[1..]), d[1..]);
      assert d == [d[0]] + d[1..];
    }
  }

  /** A byte's two digits in front of an encoding decode to the byte in front of its decoding. */
  lemma DecodeEncodedByte(b: byte, rest: string, tail: seq<byte>)
    requires HexDecode(rest) == Some(tail)
    ensures HexDecode([HexDigits[b as int / 16], HexDigits[b as int % 16]] + rest) == Some([b] + tail)
  {
    PairValue(b);
    HexDecodePair(HexDigits[b as int / 16], HexDigits[b as int % 16], b, rest, tail);
  }
}

=== FILE: log_parse.dfy ===
/**
 report.py's `parseLine`: one right-stripped log line to a record. The line
 is cut at single spaces; the first two pieces are read as start and end
 times, the last three as `out=`, `err=` and `exit=` counts, and the stdin
 length is the distance from the first `|` to the first `out=`.

 `datetime.strptime` is the parameter `parseTime`, giving seconds or failing.
 */
module LogParse {
  import opened Common
  import opened PyStrings

  /** The dictionary `parseLine` returns, without the float `duration`. */
  datatype LogRecord = LogRecord(
    startTime: int,
    endTime: int,
    stdinLen: int,
    stdoutLen: int,
    stderrLen: int,
    exitCode: int)

  /** The exceptions that end report.py. */
  datatype PyError = IndexError | ValueError | ZeroDivisionError

  /** `int(token.replace(prefix, ""))`. */
  function Field(token: string, prefix: string): (r: Result<int, PyError>)
    ensures r.Failure? ==> r.error == ValueError
  {
    match PyInt(RemoveAll(token, prefix))
    case None => Failure(ValueError)
    case Some(v) => Success(v)
  }

  /**
   `parseLine(line)`, exception for exception: a missing piece is an
   `IndexError`, an unparsable time or number or a missing `|` or `out=` is
   a `ValueError`.
   */
  function ParseLine(line: string, parseTime: string -> Option<int>): (r: Result<LogRecord, PyError>)
    ensures r.Success? ==> |Split(line)| >= 3
    ensures r.Success? ==> Contains(line, "|") && Contains(line, "out=")
    ensures r.Success? ==> r.value.stdinLen == Find(line, "out=").value - Find(line, "|").value
    ensures r.Success? ==> parseTime(Split(line)[0]) == Some(r.value.startTime)
    ensures r.Success? ==> parseTime(Split(line)[1]) == Some(r.value.endTime)
    ensures r.Success? ==> var parts := Split(line); var n := |parts|;
      && Field(parts[n - 3], "out=") == Success(r.value.stdoutLen)
      && Field(parts[n - 2], "err=") == Success(r.value.stderrLen)
      && Field(parts[n - 1], "exit=") == Success(r.value.exitCode)
    ensures var parts := Split(line); var n := |parts|;
      r.Success? <==>
        && n >= 3
        && parseTime(parts[0]).Some? && parseTime(parts[1]).Some?
        && Contains(line, "|") && Contains(line, "out=")
        && Field(parts[n - 3], "out=").Success?
        && Field(parts[n - 2], "err=").Success?
        && Field(parts[n - 1], "exit=").Success?
    ensures var parts := Split(line); var n := |parts|;
      (r.Failure? && r.error == IndexError) <==>
        && parseTime(parts[0]).Some?
        && (n < 2 || (parseTime(parts[1]).Some? && Contains(line, "|") && Contains(line, "out=") && n < 3))
    ensures r.Failure? && r.error == IndexError ==> |Split(line)| < 3
    ensures r.Failure? ==> r.error != ZeroDivisionError
  {
    var parts := Split(line);
    var n := |parts|;
    match parseTime(parts[0])
    case None => Failure(ValueError)
    case Some(start) =>
      if n < 2 then Failure(IndexError)
      else match parseTime(parts[1])
        case None => Failure(ValueError)
        case Some(end) =>
          match (Find(line, "|"), Find(line, "out="))
          case (None, _) => Failure(ValueError)
          case (_, None) => Failure(ValueError)
          case (Some(stdinBegin), Some(stdoutBegin)) =>
            if n < 3 then Failure(IndexError)
            else match (Field(parts[n - 3], "out="), Field(parts[n - 2], "err="), Field(parts[n - 1], "exit="))
              case (Success(out), Success(err), Success(exit)) =>
                Success(LogRecord(start, end, stdoutBegin as int - stdinBegin as int, out, err, exit))
              case _ => Failure(ValueError)
  }

  /** Every line of a file parsed in order, or the first line's exception. */
  function ParseAll(lines: seq<string>, parseTime: string -> Option<int>): (r: Result<seq<LogRecord>, PyError>)
    ensures r.Success? ==> |r.value| == |lines|
    ensures r.Success? ==> forall i :: 0 <= i < |lines| ==> ParseLine(lines[i], parseTime) == Success(r.value[i])
    ensures (forall i :: 0 <= i < |lines| ==> ParseLine(lines[i], parseTime).Success?) ==> r.Success?
  {
    if |lines| == 0 then Success([])
    else match ParseLine(lines[0], parseTime)
      case Failure(e) => Failure(e)
      case Success(rec) =>
        var rest := lines[1..];
        match ParseAll(rest, parseTime)
        case Success(recs) =>
          assert forall i :: 1 <= i < |lines| ==> lines[i] == rest[i - 1];
          Success([rec] + recs)
        case Failure(e) =>
          assert forall i :: 0 <= i < |rest| ==> rest[i] == lines[i + 1];
          Failure(e)
  }
}

=== FILE: py_strings.dfy ===
/**
 The pieces of Python's `str` and text-file behaviour that report.py relies
 on: `split(" ")`, `index`, `replace(pat, "")`, `rstrip()`, `int()` and
 `readline()` on a file opened in text mode (universal newlines).
 */
module PyStrings {
  import opened Common

  /** Python's `str.isspace` for one character: what `rstrip()` removes. */
  predicate IsPySpace(c: char) {
    || ('\t' <= c <= '\r')
    || ('\U{1C}' <= c <= '\U{1F}')
    || c == ' '
    || c == '\U{85}'
    || c == '\U{A0}'
    || c == '\U{1680}'
    || ('\U{2000}' <= c <= '\U{200A}')
    || c == '\U{2028}'
    || c == '\U{2029}'
    || c == '\U{202F}'
    || c == '\U{205F}'
    || c == '\U{3000}'
  }

  /** `s.rstrip()`: the longest prefix of `s` that does not end in white space. */
  function RStrip(s: string): (r: string)
    ensures r <= s
    ensures |r| == 0 || !IsPySpace(r[|r| - 1])
    ensures forall i :: |r| <= i < |s| ==> IsPySpace(s[i])
  {
    if |s| > 0 && IsPySpace(s[|s| - 1]) then RStrip(s[..|s| - 1]) else s
  }

  /**
   `s.split(" ")`: the maximal space-free pieces between single spaces.
   Adjacent spaces give empty pieces, and there is always at least one piece.
   */
  function Split(s: string): (r: seq<string>)
    ensures |r| >= 1
    ensures forall i :: 0 <= i < |r| ==> ' ' !in r[i]
    ensures ' ' !in s ==> r == [s]
  {
    if |s| == 0 then [""]
    else if s[0] == ' ' then [""] + Split(s[1..])
    else
      var t := Split(s[1..]);
      assert ' ' !in s ==> [s[0]] + s[1..] == s;
      [[s[0]] + t[0]] + t[1..]
  }

  /** Splitting at a space splits the pieces of both sides apart. */
  lemma {:induction false} SplitAppend(a: string, b: string)
    ensures Split(a + " " + b) == Split(a) + Split(b)
  {
    if |a| == 0 {
      assert a + " " + b == [' '] + b;
      assert ([' '] + b)[1..] == b;
    } else {
      assert (a + " " + b)[0] == a[0];
      assert (a + " " + b)[1..] == a[1..] + " " + b;
      SplitAppend(a[1..], b);
      if a[0] != ' ' {
        JoinFirstPiece(a[0], Split(a[1..]), Split(b));
      }
    }
  }

  /** A character glued to the first piece of `u + v` is glued to the first piece of `u`. */
  lemma JoinFirstPiece(c: char, u: seq<string>, v: seq<string>)
    requires |u| >= 1
    ensures [[c] + (u + v)[0]] + (u + v)[1..] == ([[c] + u[0]] + u[1..]) + v
  {
    assert (u + v)[0] == u[0] && (u + v)[1..] == u[1..] + v;
  }

  /** `pat` occurs in `s` starting at index `i`. */
  predicate OccursAt(s: string, pat: string, i: int) {
    0 <= i && i + |pat| <= |s| && s[i..i + |pat|] == pat
  }

  predicate Contains(s: string, pat: string) {
    exists i :: 0 <= i <= |s| && OccursAt(s, pat, i)
  }

  /** The first occurrence of `pat` at or after `k`, if any. */
  function FindFrom(s: string, pat: string, k: nat): (r: Option<nat>)
    requires k <= |s|
    ensures r.Some? ==> k <= r.value && OccursAt(s, pat, r.value)
    ensures r.Some? ==> forall j :: k <= j < r.value ==> !OccursAt(s, pat, j)
    ensures r.None? ==> forall j :: k <= j ==> !OccursAt(s, pat, j)
    decreases |s| - k
  {
    if k + |pat| > |s| then None
    else if s[k..k + |pat|] == pat then Some(k)
    else FindFrom(s, pat, k + 1)
  }

  /**
   `s.index(pat)`: the first index where `pat` occurs; `None` stands for the
   `ValueError` Python raises when it does not occur.
   */
  function Find(s: string, pat: string): (r: Option<nat>)
    ensures r.Some? ==> OccursAt(s, pat, r.value)
    ensures r.Some? ==> forall j :: 0 <= j < r.value ==> !OccursAt(s, pat, j)
    ensures r.None? <==> !Contains(s, pat)
  {
    FindFrom(s, pat, 0)
  }

  /** The first occurrence is found. */
  lemma FindsFirst(s: string, pat: string, k: nat)
    requires OccursAt(s, pat, k)
    requires forall j :: 0 <= j < k ==> !OccursAt(s, pat, j)
    ensures Find(s, pat) == Some(k)
  {
    assert k <= |s|;
    assert Contains(s, pat);
  }

  /**
   `s.replace(pat, "")`: every occurrence of `pat`, scanned left to right
   without overlap, removed.
   */
  function RemoveAll(s: string, pat: string): (r: string)
    ensures |r| <= |s|
    ensures |pat| == 0 ==> r == s
    decreases |s|
  {
    if |pat| == 0 || |s| < |pat| then s
    else if s[..|pat|] == pat then RemoveAll(s[|pat|..], pat)
    else [s[0]] + RemoveAll(s[1..], pat)
  }

  /** Text in which `pat` never occurs comes back unchanged. */
  lemma {:induction false} RemoveAllNone(s: string, pat: string)
    requires |pat| > 0 && !Contains(s, pat)
    ensures RemoveAll(s, pat) == s
    decreases |s|
  {
    if |s| >= |pat| {
      assert !OccursAt(s, pat, 0);
      var t := s[1..];
      forall i | 0 <= i <= |t| && OccursAt(t, pat, i) ensures OccursAt(s, pat, i + 1) {
        assert t[i..i + |pat|] == s[i + 1..i + 1 + |pat|];
      }
      RemoveAllNone(t, pat);
      assert s == [s[0]] + t;
    }
  }

  /**
   At the first occurrence: the text before it is kept, the occurrence is
   dropped, and the scan resumes right after it.
   */
  lemma RemoveAllAt(s: string, pat: string, i: nat)
    requires |pat| > 0 && Find(s, pat) == Some(i)
    ensures RemoveAll(s, pat) == s[..i] + RemoveAll(s[i + |pat|..], pat)
  {
    RemoveAllFrom(s, pat, 0, i);
    assert s[0..] == s;
  }

  /** The scan from `k`, when the next occurrence is at `i`. */
  lemma {:induction false} RemoveAllFrom(s: string, pat: string, k: nat, i: nat)
    requires |pat| > 0 && k <= i && OccursAt(s, pat, i)
    requires forall j :: k <= j < i ==> !OccursAt(s, pat, j)
    ensures RemoveAll(s[k..], pat) == s[k..i] + RemoveAll(s[i + |pat|..], pat)
    decreases i - k
  {
    if k == i {
      RemoveAllDropsAt(s, pat, k);
    } else {
      RemoveAllKeepsAt(s, pat, k);
      RemoveAllFrom(s, pat, k + 1, i);
      assert s[k..i] == [s[k]] + s[k + 1..i];
      KeptInFront(RemoveAll(s[k..], pat), s[k], RemoveAll(s[k + 1..], pat), s[k + 1..i], s[k..i],
                  RemoveAll(s[i + |pat|..], pat));
    }
  }

  /** A kept character in front of what follows it, kept before `rest`. */
  lemma KeptInFront(whole: string, c: char, tail: string, kept: string, prefix: string, rest: string)
    requires whole == [c] + tail && tail == kept + rest && prefix == [c] + kept
    ensures whole == prefix + rest
  {
  }

  /** An occurrence at `k` is dropped whole. */
  lemma RemoveAllDropsAt(s: string, pat: string, k: nat)
    requires |pat| > 0 && OccursAt(s, pat, k)
    ensures RemoveAll(s[k..], pat) == s[k..k] + RemoveAll(s[k + |pat|..], pat)
  {
    assert s[k..][..|pat|] == pat;
    assert s[k..][|pat|..] == s[k + |pat|..];
    assert s[k..k] + RemoveAll(s[k + |pat|..], pat) == RemoveAll(s[k + |pat|..], pat);
  }

  /** Where no occurrence starts at `k`, the character at `k` is kept. */
  lemma RemoveAllKeepsAt(s: string, pat: string, k: nat)
    requires 0 < |pat| && k + |pat| <= |s| && !OccursAt(s, pat, k)
    ensures RemoveAll(s[k..], pat) == [s[k]] + RemoveAll(s[k + 1..], pat)
  {
    assert s[k..][..|pat|] == s[k..k + |pat|];
    assert s[k..][1..] == s[k + 1..];
  }

  /** A counter token: the leading `pat` goes and the rest, free of `pat`, stays. */
  lemma RemoveAllLeading(pat: string, s: string)
    requires |pat| > 0 && !Contains(s, pat)
    ensures RemoveAll(pat + s, pat) == s
  {
    var t := pat + s;
    assert t[..|pat|] == pat && t[|pat|..] == s;
    RemoveAllNone(s, pat);
  }

  /** Text that never shows the first character of `pat` has nothing to remove. */
  lemma {:induction false} RemoveAllAbsent(s: string, pat: string)
    requires |pat| > 0 && pat[0] !in s
    ensures RemoveAll(s, pat) == s
  {
    if |s| >= |pat| {
      assert s[..|pat|][0] == s[0];
      assert s[1..] == s[1..] && pat[0] !in s[1..];
      RemoveAllAbsent(s[1..], pat);
      assert s == [s[0]] + s[1..];
    }
  }

  /** Value of a non-empty run of decimal digits, most significant first. */
  function DigitsValue(s: string): (n: nat)
    requires forall i :: 0 <= i < |s| ==> IsDecimalDigit(s[i])
  {
    if |s| == 0 then 0
    else
      assert IsDecimalDigit(s[|s| - 1]);
      DigitsValue(s[..|s| - 1]) * 10 + (s[|s| - 1] as int - '0' as int)
  }

  predicate AllDigits(s: string) {
    |s| > 0 && forall i :: 0 <= i < |s| ==> IsDecimalDigit(s[i])
  }

  /**
   `int(s)` on a token: an optional sign followed by decimal digits. `None`
   stands for the `ValueError` Python raises on anything else.
   */
  function PyInt(s: string): (r: Option<int>)
    ensures r.Some? ==> |s| > 0
    ensures r.Some? && r.value < 0 ==> s[0] == '-'
    ensures AllDigits(s) ==> r == Some(DigitsValue(s))
    ensures r.Some? <==> AllDigits(s) || (|s| > 0 && (s[0] == '-' || s[0] == '+') && AllDigits(s[1..]))
  {
    if |s| > 0 && (s[0] == '-' || s[0] == '+') then
      if AllDigits(s[1..]) then
        var v: int := DigitsValue(s[1..]);
        Some(if s[0] == '-' then -v else v)
      else None
    else if AllDigits(s) then Some(DigitsValue(s))
    else None
  }

  /**
   One `readline()` of a text-mode file: the line's content without its
   terminator, and what follows. Universal newlines: `"\n"`, `"\r\n"` and a
   lone `"\r"` all end a line.
   */
  function SplitLine(s: string): (r: (string, string))
    requires |s| > 0
    ensures |r.1| < |s|
    ensures r.0 <= s
    ensures '\n' !in r.0 && '\r' !in r.0
    ensures '\n' !in s && '\r' !in s ==> r == (s, "")
  {
    if s[0] == '\n' then ("", s[1..])
    else if s[0] == '\r' then
      if |s| > 1 && s[1] == '\n' then ("", s[2..]) else ("", s[1..])
    else if |s| == 1 then (s, "")
    else
      var (line, rest) := SplitLine(s[1..]);
      assert [s[0]] + s[1..] == s;
      ([s[0]] + line, rest)
  }

  /** A line without terminators, followed by `"\n"`, is read back whole. */
  lemma {:induction false} SplitLineOf(line: string, rest: string)
    requires '\n' !in line && '\r' !in line
    ensures SplitLine(line + "\n" + rest) == (line, rest)
  {
    if |line| > 0 {
      assert (line + "\n" + rest)[1..] == line[1..] + "\n" + rest;
      SplitLineOf(line[1..], rest);
      assert [line[0]] + line[1..] == line;
    } else {
      assert (line + "\n" + rest)[1..] == rest;
    }
  }

  /** A line without terminators, followed by `"\r\n"`, is read back whole: the pair is one line end. */
  lemma {:induction false} SplitLineAtCrLf(line: string, rest: string)
    requires '\n' !in line && '\r' !in line
    ensures SplitLine(line + "\r\n" + rest) == (line, rest)
  {
    if |line| > 0 {
      assert (line + "\r\n" + rest)[1..] == line[1..] + "\r\n" + rest;
      SplitLineAtCrLf(line[1..], rest);
      assert [line[0]] + line[1..] == line;
    } else {
      assert (line + "\r\n" + rest)[2..] == rest;
    }
  }

  /**
   The lines the loop `while (l := file.readline().rstrip())` sees: each line
   right-stripped, stopping at end of file or at the first line that is empty
   once stripped. Every line handed on is non-empty and has no terminator.
   */
  function FileLines(content: string): (r: seq<string>)
    ensures forall i :: 0 <= i < |r| ==> |r[i]| > 0 && RStrip(r[i]) == r[i]
    ensures forall i :: 0 <= i < |r| ==> '\n' !in r[i] && '\r' !in r[i]
    decreases |content|
  {
    if |content| == 0 then []
    else
      var (line, rest) := SplitLine(content);
      var l := RStrip(line);
      if |l| == 0 then [] else [l] + FileLines(rest)
  }

  /** Reading stops at a blank line: nothing after it is ever looked at. */
  lemma StopsAtBlankLine(blank: string, rest: string)
    requires '\n' !in blank && '\r' !in blank
    requires forall i :: 0 <= i < |blank| ==> IsPySpace(blank[i])
    ensures FileLines(blank + "\n" + rest) == []
  {
    SplitLineOf(blank, rest);
    RStripAllSpace(blank);
  }

  lemma {:induction false} RStripAllSpace(s: string)
    requires forall i :: 0 <= i < |s| ==> IsPySpace(s[i])
    ensures RStrip(s) == ""
  {
    if |s| > 0 {
      RStripAllSpace(s[..|s| - 1]);
    }
  }

  /** Lines written with a `"\n"` after each are read back one for one. */
  lemma {:induction false} FileLinesOfWritten(lines: seq<string>)
    requires forall i :: 0 <= i < |lines| ==> |lines[i]| > 0 && RStrip(lines[i]) == lines[i]
    requires forall i :: 0 <= i < |lines| ==> '\n' !in lines[i] && '\r' !in lines[i]
    ensures FileLines(Concat(Terminated(lines))) == lines
  {
    if |lines| > 0 {
      var t := Terminated(lines);
      assert t[1..] == Terminated(lines[1..]);
      assert Concat(t) == lines[0] + "\n" + Concat(Terminated(lines[1..]));
      SplitLineOf(lines[0], Concat(Terminated(lines[1..])));
      FileLinesOfWritten(lines[1..]);
      assert lines == [lines[0]] + lines[1..];
    }
  }

  /** Each line followed by its `"\n"`. */
  function Terminated(lines: seq<string>): (r: seq<string>)
    ensures |r| == |lines|
    ensures forall i :: 0 <= i < |r| ==> r[i] == lines[i] + "\n"
  {
    if |lines| == 0 then [] else [lines[0] + "\n"] + Terminated(lines[1..])
  }
}

=== FILE: report.dfy ===
/**
 The loop in report.py's `main`: every parsed line is classified as a
 non-zero exit, filtered by the stdin limit, or counted. Within a file the
 first counted line is the baseline: each later counted line is a cache hit
 when it starts after the baseline ended and a miss otherwise, and a file
 is listed as varying when a counted stdout length strays more than 10% from
 the baseline's. Any exception ends the whole report.

 The directory listing is the sequence `files` of (name, content) pairs in
 listing order.
 */
module Report {
  import opened Common
  import opened PyStrings
  import opened LogParse

  datatype Class = NonZeroExit | Filtered | Counted

  /** Which counter a parsed line increments; `limit` is `--stdin-limit`, -1 when absent. */
  function Classify(limit: int, rec: LogRecord): (c: Class)
    ensures c == NonZeroExit <==> rec.exitCode != 0
    ensures c == Counted <==> rec.exitCode == 0 && (limit == -1 || rec.stdinLen <= limit)
    ensures limit == -1 ==> c != Filtered
  {
    if rec.exitCode != 0 then NonZeroExit
    else if limit == -1 || rec.stdinLen <= limit then Counted
    else Filtered
  }

  /** The report's counters and sets, without the float `longest_duration`. */
  datatype Tally = Tally(
    totalRequests: nat,
    filteredRequests: nat,
    exitNonzeroes: nat,
    cacheHits: nat,
    cacheMisses: nat,
    largestStdout: int,
    stderrLens: set<int>,
    stdoutVariations: set<string>)

  const Initial: Tally := Tally(0, 0, 0, 0, 0, 0, {}, {})

  function Abs(x: int): nat {
    if x < 0 then -x else x
  }

  /** A counted stdout length strays more than 10% from a positive baseline. */
  predicate Strays(out: int, base: int) {
    base > 0 && 10 * Abs(out - base) > base
  }

  /**
   `abs(out - base) / base > 0.1`, in exact arithmetic: a zero baseline
   raises, a negative one never strays.
   */
  function Varies(out: int, base: int): (r: Result<bool, PyError>)
    ensures r.Failure? <==> base == 0
    ensures r.Failure? ==> r.error == ZeroDivisionError
    ensures r.Success? ==> (r.value <==> Strays(out, base))
  {
    if base == 0 then Failure(ZeroDivisionError)
    else
      var ratio := (Abs(out - base) as real) / (base as real);
      RatioAboveTenth(Abs(out - base), base);
      Success(ratio > 0.1)
  }

  /** The ratio exceeds one tenth exactly when ten times the difference exceeds a positive base. */
  lemma RatioAboveTenth(d: nat, base: int)
    requires base != 0
    ensures (d as real) / (base as real) > 0.1 <==> base > 0 && 10 * d > base
  {
    var b := base as real;
    var q := (d as real) / b;
    var e := q - 0.1;
    assert q * b == d as real;
    assert e * b == (d as real) - 0.1 * b;
    ProductSign(e, b);
    ProductSign(q, b);
  }

  lemma ProductSign(x: real, y: real)
    ensures x > 0.0 && y > 0.0 ==> x * y > 0.0
    ensures x > 0.0 && y < 0.0 ==> x * y < 0.0
    ensures x <= 0.0 && y > 0.0 ==> x * y <= 0.0
  {
  }

  /** The per-file loop state: `first_line` and the counters. */
  datatype FileState = FileState(first: Option<LogRecord>, tally: Tally)

  /** Lines classified so far: every parsed line lands in exactly one of these counters. */
  function Classified(t: Tally): nat {
    t.exitNonzeroes + t.filteredRequests + t.totalRequests
  }

  /** No counter falls, the largest stdout never shrinks and the sets only gain members. */
  predicate Grows(t: Tally, t': Tally) {
    && t.totalRequests <= t'.totalRequests
    && t.filteredRequests <= t'.filteredRequests
    && t.exitNonzeroes <= t'.exitNonzeroes
    && t.cacheHits <= t'.cacheHits
    && t.cacheMisses <= t'.cacheMisses
    && t.largestStdout <= t'.largestStdout
    && t.stderrLens <= t'.stderrLens
    && t.stdoutVariations <= t'.stdoutVariations
  }

  /**
   One iteration of the inner loop on a parsed line: it classifies the line
   once, only ever adds to the counters, and never replaces a baseline.
   */
  function Step(limit: int, name: string, st: FileState, rec: LogRecord): (r: Result<FileState, PyError>)
    ensures r.Failure? ==> r.error == ZeroDivisionError
    ensures r.Success? ==> Classified(r.value.tally) == Classified(st.tally) + 1
    ensures r.Success? ==> Grows(st.tally, r.value.tally)
    ensures r.Success? && st.first.Some? ==> r.value.first == st.first
    ensures r.Success? && st.first.None? ==> (r.value.first == Some(rec) <==> Classify(limit, rec) == Counted)
  {
    var t := st.tally;
    match Classify(limit, rec)
    case NonZeroExit => Success(FileState(st.first, t.(exitNonzeroes := t.exitNonzeroes + 1)))
    case Filtered => Success(FileState(st.first, t.(filteredRequests := t.filteredRequests + 1)))
    case Counted =>
      var first := if st.first.None? then rec else st.first.value;
      var hit := st.first.Some? && rec.startTime > first.endTime;
      var miss := st.first.Some? && !(rec.startTime > first.endTime);
      match Varies(rec.stdoutLen, first.stdoutLen)
      case Failure(e) => Failure(e)
      case Success(varies) =>
        Success(FileState(Some(first), Tally(
          t.totalRequests + 1,
          t.filteredRequests,
          t.exitNonzeroes,
          if hit then t.cacheHits + 1 else t.cacheHits,
          if miss then t.cacheMisses + 1 else t.cacheMisses,
          if rec.stdoutLen > t.largestStdout then rec.stdoutLen else t.largestStdout,
          t.stderrLens + {rec.stderrLen},
          if varies then t.stdoutVariations + {name} else t.stdoutVariations)))
  }

  /** The inner loop over a file's parsed lines. */
  function FoldRecords(limit: int, name: string, recs: seq<LogRecord>, st: FileState): (r: Result<FileState, PyError>)
    ensures r.Failure? ==> r.error == ZeroDivisionError
    ensures r.Success? ==> Classified(r.value.tally) == Classified(st.tally) + |recs|
    ensures r.Success? ==> Grows(st.tally, r.value.tally)
    ensures r.Success? && st.first.Some? ==> r.value.first == st.first
    decreases |recs|
  {
    if |recs| == 0 then Success(st)
    else match Step(limit, name, st, recs[0])
      case Failure(e) => Failure(e)
      case Success(next) => FoldRecords(limit, name, recs[1..], next)
  }

  /** The inner loop as written: each line is parsed just before it is classified. */
  function ScanFile(limit: int, name: string, lines: seq<string>, st: FileState,
                    parseTime: string -> Option<int>): (r: Result<FileState, PyError>)
    ensures r.Success? ==> Classified(r.value.tally) == Classified(st.tally) + |lines|
    ensures r.Success? ==> Grows(st.tally, r.value.tally)
    ensures r.Success? && st.first.Some? ==> r.value.first == st.first
    decreases |lines|
  {
    if |lines| == 0 then Success(st)
    else match ParseLine(lines[0], parseTime)
      case Failure(e) => Failure(e)
      case Success(rec) =>
        match Step(limit, name, st, rec)
        case Failure(e) => Failure(e)
        case Success(next) => ScanFile(limit, name, lines[1..], next, parseTime)
  }

  /** The outer loop from a given tally: each file starts without a baseline. */
  function ReportFrom(limit: int, files: seq<(string, string)>, t: Tally,
                      parseTime: string -> Option<int>): (r: Result<Tally, PyError>)
    decreases |files|
  {
    if |files| == 0 then Success(t)
    else match ScanFile(limit, files[0].0, FileLines(files[0].1), FileState(None, t), parseTime)
      case Failure(e) => Failure(e)
      case Success(st) => ReportFrom(limit, files[1..], st.tally, parseTime)
  }

  /** report.py's `main` up to the printing. */
  function RunReport(limit: int, files: seq<(string, string)>, parseTime: string -> Option<int>): (r: Result<Tally, PyError>)
    ensures r.Success? ==> Classified(r.value) == LinesRead(files)
  {
    var report := ReportFrom(limit, files, Initial, parseTime);
    if report.Success? then
      ReportClassified(limit, files, Initial, parseTime);
      report
    else report
  }

  // ---------------------------------------------------------------------
  // Reference definitions: what the counters should count.

  /** Number of records of the given class. */
  function CountOf(limit: int, recs: seq<LogRecord>, c: Class): nat
  {
    if |recs| == 0 then 0
    else (if Classify(limit, recs[0]) == c then 1 else 0) + CountOf(limit, recs[1..], c)
  }

  /** The counted records, in order. */
  function CountedRecords(limit: int, recs: seq<LogRecord>): (r: seq<LogRecord>)
    ensures |r| == CountOf(limit, recs, Counted)
    ensures forall i :: 0 <= i < |r| ==> Classify(limit, r[i]) == Counted && r[i] in recs
  {
    if |recs| == 0 then []
    else (if Classify(limit, recs[0]) == Counted then [recs[0]] else []) + CountedRecords(limit, recs[1..])
  }

  /** Number of records that start strictly after `base` ended. */
  function StartingAfter(c: seq<LogRecord>, base: LogRecord): nat
    ensures StartingAfter(c, base) <= |c|
  {
    if |c| == 0 then 0
    else (if c[0].startTime > base.endTime then 1 else 0) + StartingAfter(c[1..], base)
  }

  /** The baseline a file ends up with, if any line was counted. */
  function Baseline(first: Option<LogRecord>, c: seq<LogRecord>): Option<LogRecord>
  {
    if first.Some? then first else if |c| > 0 then Some(c[0]) else None
  }

  /** The counted records compared against the baseline. */
  function Compared(first: Option<LogRecord>, c: seq<LogRecord>): seq<LogRecord>
  {
    if first.Some? || |c| == 0 then c else c[1..]
  }

  function StderrLensOf(c: seq<LogRecord>): set<int>
  {
    set i | 0 <= i < |c| :: c[i].stderrLen
  }

  predicate AnyStrays(c: seq<LogRecord>, base: LogRecord) {
    exists i :: 0 <= i < |c| && Strays(c[i].stdoutLen, base.stdoutLen)
  }

  /** A stored baseline always has a non-zero stdout length. */
  predicate Sane(st: FileState) {
    st.first.Some? ==> st.first.value.stdoutLen != 0
  }

  // ---------------------------------------------------------------------
  // The inner loop against the reference.

  lemma {:induction false} ClassesPartition(limit: int, recs: seq<LogRecord>)
    ensures CountOf(limit, recs, NonZeroExit) + CountOf(limit, recs, Filtered) + CountOf(limit, recs, Counted) == |recs|
    ensures limit == -1 ==> CountOf(limit, recs, Filtered) == 0
  {
    if |recs| > 0 {
      ClassesPartition(limit, recs[1..]);
    }
  }

  /** Each line adds one to exactly the counter of its class. */
  lemma {:induction false} FoldCounts(limit: int, name: string, recs: seq<LogRecord>, st: FileState)
    requires FoldRecords(limit, name, recs, st).Success?
    ensures var t, t' := st.tally, FoldRecords(limit, name, recs, st).value.tally;
      && t'.exitNonzeroes == t.exitNonzeroes + CountOf(limit, recs, NonZeroExit)
      && t'.filteredRequests == t.filteredRequests + CountOf(limit, recs, Filtered)
      && t'.totalRequests == t.totalRequests + CountOf(limit, recs, Counted)
  {
    if |recs| > 0 {
      var next := Step(limit, name, st, recs[0]).value;
      FoldCounts(limit, name, recs[1..], next);
    }
  }

  /**
   The first counted line becomes the baseline; each later counted line is a
   hit exactly when it starts after the baseline ended, and a miss otherwise.
   */
  lemma {:induction false} FoldCache(limit: int, name: string, recs: seq<LogRecord>, st: FileState)
    requires FoldRecords(limit, name, recs, st).Success?
    ensures var c := CountedRecords(limit, recs);
      var t, r := st.tally, FoldRecords(limit, name, recs, st).value;
      var rest := Compared(st.first, c);
      && r.first == Baseline(st.first, c)
      && (r.first.Some? ==>
            && r.tally.cacheHits == t.cacheHits + StartingAfter(rest, r.first.value)
            && r.tally.cacheMisses == t.cacheMisses + |rest| - StartingAfter(rest, r.first.value))
      && (r.first.None? ==> r.tally.cacheHits == t.cacheHits && r.tally.cacheMisses == t.cacheMisses)
  {
    if |recs| > 0 {
      var next := Step(limit, name, st, recs[0]).value;
      FoldCache(limit, name, recs[1..], next);
      var c := CountedRecords(limit, recs);
      var c' := CountedRecords(limit, recs[1..]);
      if Classify(limit, recs[0]) == Counted {
        assert c == [recs[0]] + c';
        assert c[1..] == c';
        if st.first.Some? {
          assert c[0] == recs[0];
          assert c[1..] == c';
        }
      } else {
        assert c == c';
      }
    }
  }

  /** Hits and misses together: every counted line but the baseline. */
  lemma FoldHitsPlusMisses(limit: int, name: string, recs: seq<LogRecord>, st: FileState)
    requires FoldRecords(limit, name, recs, st).Success?
    ensures var c := CountedRecords(limit, recs);
      var t, t' := st.tally, FoldRecords(limit, name, recs, st).value.tally;
      t'.cacheHits + t'.cacheMisses
        == t.cacheHits + t.cacheMisses + |c| - (if st.first.None? && |c| > 0 then 1 else 0)
  {
    FoldCache(limit, name, recs, st);
  }

  /** `m` is at least every stdout length in `c`. */
  predicate Bounds(m: int, c: seq<LogRecord>) {
    forall i :: 0 <= i < |c| ==> c[i].stdoutLen <= m
  }

  /** `m` is one of the stdout lengths in `c`. */
  predicate Attains(m: int, c: seq<LogRecord>) {
    exists i :: 0 <= i < |c| && c[i].stdoutLen == m
  }

  lemma SplitBounds(m: int, a: seq<LogRecord>, b: seq<LogRecord>)
    ensures Bounds(m, a + b) <==> Bounds(m, a) && Bounds(m, b)
    ensures Attains(m, a + b) <==> Attains(m, a) || Attains(m, b)
    ensures StderrLensOf(a + b) == StderrLensOf(a) + StderrLensOf(b)
  {
    var ab := a + b;
    assert forall i :: 0 <= i < |b| ==> ab[|a| + i] == b[i];
    assert forall i :: 0 <= i < |a| ==> ab[i] == a[i];
    if Attains(m, ab) {
      var i :| 0 <= i < |ab| && ab[i].stdoutLen == m;
      if i >= |a| {
        assert b[i - |a|] == ab[i];
      }
    }
    forall x | x in StderrLensOf(ab) ensures x in StderrLensOf(a) + StderrLensOf(b) {
      var i :| 0 <= i < |ab| && ab[i].stderrLen == x;
      if i >= |a| {
        assert b[i - |a|] == ab[i];
      }
    }
    forall x | x in StderrLensOf(b) ensures x in StderrLensOf(ab) {
      var i :| 0 <= i < |b| && b[i].stderrLen == x;
      assert ab[|a| + i] == b[i];
    }
    forall x | x in StderrLensOf(a) ensures x in StderrLensOf(ab) {
      var i :| 0 <= i < |a| && a[i].stderrLen == x;
      assert ab[i] == a[i];
    }
  }

  /** The counted records of a prefix line followed by the rest. */
  lemma CountedCons(limit: int, recs: seq<LogRecord>)
    requires |recs| > 0
    ensures CountedRecords(limit, recs)
      == (if Classify(limit, recs[0]) == Counted then [recs[0]] else []) + CountedRecords(limit, recs[1..])
  {
  }

  /** The largest stdout is the maximum of the old value and every counted one. */
  lemma {:induction false} FoldLargest(limit: int, name: string, recs: seq<LogRecord>, st: FileState)
    requires FoldRecords(limit, name, recs, st).Success?
    ensures var c := CountedRecords(limit, recs);
      var t, t' := st.tally, FoldRecords(limit, name, recs, st).value.tally;
      && t.largestStdout <= t'.largestStdout
      && Bounds(t'.largestStdout, c)
      && (t'.largestStdout == t.largestStdout || Attains(t'.largestStdout, c))
  {
    if |recs| > 0 {
      var next := Step(limit, name, st, recs[0]).value;
      FoldLargest(limit, name, recs[1..], next);
      var m := FoldRecords(limit, name, recs, st).value.tally.largestStdout;
      var head := if Classify(limit, recs[0]) == Counted then [recs[0]] else [];
      CountedCons(limit, recs);
      SplitBounds(m, head, CountedRecords(limit, recs[1..]));
      if Classify(limit, recs[0]) == Counted {
        assert head[0] == recs[0];
      }
    }
  }

  /** The stderr patterns are exactly the counted stderr lengths. */
  lemma {:induction false} FoldStderr(limit: int, name: string, recs: seq<LogRecord>, st: FileState)
    requires FoldRecords(limit, name, recs, st).Success?
    ensures var t, t' := st.tally, FoldRecords(limit, name, recs, st).value.tally;
      t'.stderrLens == t.stderrLens + StderrLensOf(CountedRecords(limit, recs))
  {
    if |recs| > 0 {
      var next := Step(limit, name, st, recs[0]).value;
      FoldStderr(limit, name, recs[1..], next);
      var head := if Classify(limit, recs[0]) == Counted then [recs[0]] else [];
      CountedCons(limit, recs);
      SplitBounds(0, head, CountedRecords(limit, recs[1..]));
      if Classify(limit, recs[0]) == Counted {
        assert StderrLensOf(head) == {recs[0].stderrLen} by {
          assert head[0] == recs[0];
        }
      } else {
        assert StderrLensOf(head) == {};
      }
    }
  }

  /**
   The file is listed as varying exactly when some counted stdout length
   strays more than 10% from the baseline's; no other name is added.
   */
  lemma {:induction false} FoldVariations(limit: int, name: string, recs: seq<LogRecord>, st: FileState)
    requires FoldRecords(limit, name, recs, st).Success?
    ensures var c := CountedRecords(limit, recs);
      var t, r := st.tally, FoldRecords(limit, name, recs, st).value;
      && (r.first.Some? ==>
            r.tally.stdoutVariations == t.stdoutVariations + (if AnyStrays(c, r.first.value) then {name} else {}))
      && (r.first.None? ==> r.tally.stdoutVariations == t.stdoutVariations)
  {
    if |recs| > 0 {
      var next := Step(limit, name, st, recs[0]).value;
      FoldVariations(limit, name, recs[1..], next);
      FoldCache(limit, name, recs[1..], next);
      FoldCache(limit, name, recs, st);
      var c := CountedRecords(limit, recs);
      var c' := CountedRecords(limit, recs[1..]);
      if Classify(limit, recs[0]) == Counted {
        assert c == [recs[0]] + c';
        AnyStraysCons(recs[0], c', next.first.value);
      } else {
        assert c == c';
      }
    }
  }

  lemma AnyStraysCons(rec: LogRecord, c: seq<LogRecord>, base: LogRecord)
    ensures AnyStrays([rec] + c, base) <==> Strays(rec.stdoutLen, base.stdoutLen) || AnyStrays(c, base)
  {
    var c2 := [rec] + c;
    if Strays(rec.stdoutLen, base.stdoutLen) {
      assert c2[0] == rec;
    }
    if AnyStrays(c2, base) {
      var i :| 0 <= i < |c2| && Strays(c2[i].stdoutLen, base.stdoutLen);
      if i > 0 {
        assert c[i - 1] == c2[i];
      }
    }
    if AnyStrays(c, base) {
      var i :| 0 <= i < |c| && Strays(c[i].stdoutLen, base.stdoutLen);
      assert c2[i + 1] == c[i];
    }
  }

  /**
   The inner loop raises exactly when the baseline it settles on has a zero
   stdout length, which happens on the baseline's own line.
   */
  lemma {:induction false} FoldSucceeds(limit: int, name: string, recs: seq<LogRecord>, st: FileState)
    requires Sane(st)
    ensures var c := CountedRecords(limit, recs);
      FoldRecords(limit, name, recs, st).Success? <==> (st.first.Some? || |c| == 0 || c[0].stdoutLen != 0)
    ensures FoldRecords(limit, name, recs, st).Success? ==> Sane(FoldRecords(limit, name, recs, st).value)
    ensures FoldRecords(limit, name, recs, st).Failure? ==> FoldRecords(limit, name, recs, st).error == ZeroDivisionError
  {
    if |recs| > 0 {
      var c := CountedRecords(limit, recs);
      var c' := CountedRecords(limit, recs[1..]);
      var s := Step(limit, name, st, recs[0]);
      if Classify(limit, recs[0]) == Counted {
        assert c == [recs[0]] + c';
        if s.Success? {
          FoldSucceeds(limit, name, recs[1..], s.value);
        }
      } else {
        assert c == c';
        FoldSucceeds(limit, name, recs[1..], s.value);
      }
    }
  }

  /**
   Parsing each line just before classifying it gives the fold over the
   parsed records whenever every line parses, and succeeds only then.
   */
  lemma {:induction false} ScanIsFold(limit: int, name: string, lines: seq<string>, st: FileState,
                                      parseTime: string -> Option<int>)
    ensures ScanFile(limit, name, lines, st, parseTime).Success? ==> ParseAll(lines, parseTime).Success?
    ensures ParseAll(lines, parseTime).Success? ==>
      ScanFile(limit, name, lines, st, parseTime) == FoldRecords(limit, name, ParseAll(lines, parseTime).value, st)
  {
    if |lines| > 0 {
      match ParseLine(lines[0], parseTime)
      case Failure(e) =>
      case Success(rec) =>
        match Step(limit, name, st, rec)
        case Failure(e) =>
          if ParseAll(lines, parseTime).Success? {
            assert ParseAll(lines, parseTime).value[0] == rec;
          }
        case Success(next) =>
          ScanIsFold(limit, name, lines[1..], next, parseTime);
          if ParseAll(lines, parseTime).Success? {
            var recs := ParseAll(lines, parseTime).value;
            assert recs[0] == rec;
            assert recs[1..] == ParseAll(lines[1..], parseTime).value;
          }
    }
  }

  // ---------------------------------------------------------------------
  // The whole report against the reference.

  /** The records of a file whose lines all parse, and none otherwise. */
  function FileRecords(content: string, parseTime: string -> Option<int>): seq<LogRecord>
  {
    match ParseAll(FileLines(content), parseTime)
    case Success(recs) => recs
    case Failure(_) => []
  }

  /** Lines read from all files: the denominator of the `exit_nonzeroes` percentage. */
  function LinesRead(files: seq<(string, string)>): nat
  {
    if |files| == 0 then 0 else |FileLines(files[0].1)| + LinesRead(files[1..])
  }

  /** The counted records of every file, file after file. */
  function AllCounted(limit: int, files: seq<(string, string)>, parseTime: string -> Option<int>): seq<LogRecord>
  {
    if |files| == 0 then []
    else CountedRecords(limit, FileRecords(files[0].1, parseTime)) + AllCounted(limit, files[1..], parseTime)
  }

  /** Number of files with at least one counted line, each of which sets a baseline. */
  function FilesWithBaseline(limit: int, files: seq<(string, string)>, parseTime: string -> Option<int>): nat
  {
    if |files| == 0 then 0
    else
      var sets := |CountedRecords(limit, FileRecords(files[0].1, parseTime))| > 0;
      (if sets then 1 else 0) + FilesWithBaseline(limit, files[1..], parseTime)
  }

  /** One file of the outer loop, seen as the fold over its records. */
  lemma ReportStep(limit: int, files: seq<(string, string)>, t: Tally, parseTime: string -> Option<int>)
    requires |files| > 0
    requires ReportFrom(limit, files, t, parseTime).Success?
    ensures var recs := FileRecords(files[0].1, parseTime);
      var r := FoldRecords(limit, files[0].0, recs, FileState(None, t));
      && ParseAll(FileLines(files[0].1), parseTime).Success?
      && recs == ParseAll(FileLines(files[0].1), parseTime).value
      && |recs| == |FileLines(files[0].1)|
      && r.Success?
      && ReportFrom(limit, files[1..], r.value.tally, parseTime).Success?
      && ReportFrom(limit, files, t, parseTime) == ReportFrom(limit, files[1..], r.value.tally, parseTime)
  {
    ScanIsFold(limit, files[0].0, FileLines(files[0].1), FileState(None, t), parseTime);
  }

  /** A completed report classifies every line it reads exactly once. */
  lemma {:induction false} ReportClassified(limit: int, files: seq<(string, string)>, t: Tally,
                                            parseTime: string -> Option<int>)
    requires ReportFrom(limit, files, t, parseTime).Success?
    ensures Classified(ReportFrom(limit, files, t, parseTime).value) == Classified(t) + LinesRead(files)
  {
    if |files| > 0 {
      var st := ScanFile(limit, files[0].0, FileLines(files[0].1), FileState(None, t), parseTime).value;
      ReportClassified(limit, files[1..], st.tally, parseTime);
    }
  }

  /** A completed report only ever adds to the tally it started from. */
  lemma {:induction false} ReportGrows(limit: int, files: seq<(string, string)>, t: Tally,
                                       parseTime: string -> Option<int>)
    requires ReportFrom(limit, files, t, parseTime).Success?
    ensures Grows(t, ReportFrom(limit, files, t, parseTime).value)
  {
    if |files| > 0 {
      var st := ScanFile(limit, files[0].0, FileLines(files[0].1), FileState(None, t), parseTime).value;
      ReportGrows(limit, files[1..], st.tally, parseTime);
    }
  }

  /**
   A report that completes counts one class per line read, one request per
   counted record, a hit or a miss for every counted line but each file's
   baseline, and no filtered line when there is no limit.
   */
  lemma {:induction false} ReportCounts(limit: int, files: seq<(string, string)>, t: Tally,
                                        parseTime: string -> Option<int>)
    requires ReportFrom(limit, files, t, parseTime).Success?
    ensures var t', all := ReportFrom(limit, files, t, parseTime).value, AllCounted(limit, files, parseTime);
      && t'.exitNonzeroes + t'.filteredRequests + t'.totalRequests
           == t.exitNonzeroes + t.filteredRequests + t.totalRequests + LinesRead(files)
      && t'.totalRequests == t.totalRequests + |all|
      && t'.cacheHits + t'.cacheMisses
           == t.cacheHits + t.cacheMisses + |all| - FilesWithBaseline(limit, files, parseTime)
      && (limit == -1 ==> t'.filteredRequests == t.filteredRequests)
  {
    if |files| > 0 {
      ReportStep(limit, files, t, parseTime);
      var recs := FileRecords(files[0].1, parseTime);
      var st0 := FileState(None, t);
      var st := FoldRecords(limit, files[0].0, recs, st0).value;
      FoldCounts(limit, files[0].0, recs, st0);
      FoldHitsPlusMisses(limit, files[0].0, recs, st0);
      ClassesPartition(limit, recs);
      ReportCounts(limit, files[1..], st.tally, parseTime);
    }
  }

  /** Records of class `c` in every file, file after file. */
  function ClassCount(limit: int, files: seq<(string, string)>, c: Class, parseTime: string -> Option<int>): nat
  {
    if |files| == 0 then 0
    else CountOf(limit, FileRecords(files[0].1, parseTime), c) + ClassCount(limit, files[1..], c, parseTime)
  }

  /** Counted records of every file that start after their own file's baseline ended. */
  function CacheHitsOf(limit: int, files: seq<(string, string)>, parseTime: string -> Option<int>): nat
  {
    if |files| == 0 then 0
    else
      var c := CountedRecords(limit, FileRecords(files[0].1, parseTime));
      (if |c| > 0 then StartingAfter(c[1..], c[0]) else 0) + CacheHitsOf(limit, files[1..], parseTime)
  }

  /** A completed report adds each class's records, over all files, to that class's counter. */
  lemma {:induction false} ReportClasses(limit: int, files: seq<(string, string)>, t: Tally,
                                         parseTime: string -> Option<int>)
    requires ReportFrom(limit, files, t, parseTime).Success?
    ensures var t' := ReportFrom(limit, files, t, parseTime).value;
      && t'.exitNonzeroes == t.exitNonzeroes + ClassCount(limit, files, NonZeroExit, parseTime)
      && t'.filteredRequests == t.filteredRequests + ClassCount(limit, files, Filtered, parseTime)
      && t'.totalRequests == t.totalRequests + ClassCount(limit, files, Counted, parseTime)
  {
    if |files| > 0 {
      ReportStep(limit, files, t, parseTime);
      var recs := FileRecords(files[0].1, parseTime);
      var st0 := FileState(None, t);
      var st := FoldRecords(limit, files[0].0, recs, st0).value;
      FoldCounts(limit, files[0].0, recs, st0);
      ReportClasses(limit, files[1..], st.tally, parseTime);
    }
  }

  /**
   A completed report counts as hits exactly the counted lines, past each
   file's baseline, that start after that baseline ended.
   */
  lemma {:induction false} ReportHits(limit: int, files: seq<(string, string)>, t: Tally,
                                      parseTime: string -> Option<int>)
    requires ReportFrom(limit, files, t, parseTime).Success?
    ensures ReportFrom(limit, files, t, parseTime).value.cacheHits == t.cacheHits + CacheHitsOf(limit, files, parseTime)
  {
    if |files| > 0 {
      ReportStep(limit, files, t, parseTime);
      var recs := FileRecords(files[0].1, parseTime);
      var st0 := FileState(None, t);
      var st := FoldRecords(limit, files[0].0, recs, st0).value;
      FoldCache(limit, files[0].0, recs, st0);
      ReportHits(limit, files[1..], st.tally, parseTime);
    }
  }

  /** The largest stdout of a completed report: the maximum of the start value and every counted one. */
  lemma {:induction false} ReportLargest(limit: int, files: seq<(string, string)>, t: Tally,
                                         parseTime: string -> Option<int>)
    requires ReportFrom(limit, files, t, parseTime).Success?
    ensures var t', all := ReportFrom(limit, files, t, parseTime).value, AllCounted(limit, files, parseTime);
      && t.largestStdout <= t'.largestStdout
      && Bounds(t'.largestStdout, all)
      && (t'.largestStdout == t.largestStdout || Attains(t'.largestStdout, all))
  {
    if |files| > 0 {
      ReportStep(limit, files, t, parseTime);
      var recs := FileRecords(files[0].1, parseTime);
      var st0 := FileState(None, t);
      var st := FoldRecords(limit, files[0].0, recs, st0).value;
      FoldLargest(limit, files[0].0, recs, st0);
      ReportLargest(limit, files[1..], st.tally, parseTime);
      var m := ReportFrom(limit, files, t, parseTime).value.largestStdout;
      SplitBounds(m, CountedRecords(limit, recs), AllCounted(limit, files[1..], parseTime));
    }
  }

  /** The stderr patterns of a completed report: the start set and every counted stderr length. */
  lemma {:induction false} ReportStderr(limit: int, files: seq<(string, string)>, t: Tally,
                                        parseTime: string -> Option<int>)
    requires ReportFrom(limit, files, t, parseTime).Success?
    ensures var t', all := ReportFrom(limit, files, t, parseTime).value, AllCounted(limit, files, parseTime);
      t'.stderrLens == t.stderrLens + StderrLensOf(all)
  {
    if |files| > 0 {
      ReportStep(limit, files, t, parseTime);
      var recs := FileRecords(files[0].1, parseTime);
      var st0 := FileState(None, t);
      var st := FoldRecords(limit, files[0].0, recs, st0).value;
      FoldStderr(limit, files[0].0, recs, st0);
      ReportStderr(limit, files[1..], st.tally, parseTime);
      SplitBounds(0, CountedRecords(limit, recs), AllCounted(limit, files[1..], parseTime));
    }
  }

  /** The files whose counted stdout lengths stray from their own file's baseline. */
  function VaryingFiles(limit: int, files: seq<(string, string)>, parseTime: string -> Option<int>): set<string>
  {
    if |files| == 0 then {}
    else
      var c := CountedRecords(limit, FileRecords(files[0].1, parseTime));
      (if |c| > 0 && AnyStrays(c, c[0]) then {files[0].0} else {}) + VaryingFiles(limit, files[1..], parseTime)
  }

  /** The variation set of a completed report: the start set and exactly the varying files. */
  lemma {:induction false} ReportVariations(limit: int, files: seq<(string, string)>, t: Tally,
                                            parseTime: string -> Option<int>)
    requires ReportFrom(limit, files, t, parseTime).Success?
    ensures ReportFrom(limit, files, t, parseTime).value.stdoutVariations
      == t.stdoutVariations + VaryingFiles(limit, files, parseTime)
  {
    if |files| > 0 {
      ReportStep(limit, files, t, parseTime);
      var recs := FileRecords(files[0].1, parseTime);
      var st0 := FileState(None, t);
      var st := FoldRecords(limit, files[0].0, recs, st0).value;
      FoldCache(limit, files[0].0, recs, st0);
      FoldVariations(limit, files[0].0, recs, st0);
      ReportVariations(limit, files[1..], st.tally, parseTime);
    }
  }

  /** A file report.py gets through: every line parses, and its baseline's stdout is not empty. */
  predicate FileCompletes(limit: int, content: string, parseTime: string -> Option<int>) {
    var parsed := ParseAll(FileLines(content), parseTime);
    && parsed.Success?
    && var c := CountedRecords(limit, parsed.value);
       |c| == 0 || c[0].stdoutLen != 0
  }

  /** The report completes exactly when every file does. */
  lemma {:induction false} ReportSucceeds(limit: int, files: seq<(string, string)>, t: Tally,
                                          parseTime: string -> Option<int>)
    ensures ReportFrom(limit, files, t, parseTime).Success?
      <==> forall i :: 0 <= i < |files| ==> FileCompletes(limit, files[i].1, parseTime)
  {
    if |files| > 0 {
      var st0 := FileState(None, t);
      ScanCompletes(limit, files[0].0, files[0].1, st0, parseTime);
      var scan := ScanFile(limit, files[0].0, FileLines(files[0].1), st0, parseTime);
      AllCompleteCons(limit, files, parseTime);
      if scan.Success? {
        ReportSucceeds(limit, files[1..], scan.value.tally, parseTime);
        assert ReportFrom(limit, files, t, parseTime) == ReportFrom(limit, files[1..], scan.value.tally, parseTime);
      } else {
        assert ReportFrom(limit, files, t, parseTime).Failure?;
      }
    }
  }

  lemma AllCompleteCons(limit: int, files: seq<(string, string)>, parseTime: string -> Option<int>)
    requires |files| > 0
    ensures (forall i :: 0 <= i < |files| ==> FileCompletes(limit, files[i].1, parseTime))
      <==> FileCompletes(limit, files[0].1, parseTime)
           && forall i :: 0 <= i < |files[1..]| ==> FileCompletes(limit, files[1..][i].1, parseTime)
  {
    assert forall i :: 1 <= i < |files| ==> files[i] == files[1..][i - 1];
  }

  /** One file of the outer loop gets through exactly when the file completes. */
  lemma ScanCompletes(limit: int, name: string, content: string, st0: FileState,
                      parseTime: string -> Option<int>)
    requires st0.first.None?
    ensures ScanFile(limit, name, FileLines(content), st0, parseTime).Success?
      <==> FileCompletes(limit, content, parseTime)
  {
    var lines := FileLines(content);
    ScanIsFold(limit, name, lines, st0, parseTime);
    var parsed := ParseAll(lines, parseTime);
    if parsed.Success? {
      FoldSucceeds(limit, name, parsed.value, st0);
    }
  }

  /**
   The report from zero counters: one class per line read, one request per
   counted record, a hit or miss for every counted line but the baselines,
   no filtered lines without a limit, the largest counted stdout (or 0), and
   exactly the counted stderr lengths.
   */
  lemma Totals(limit: int, files: seq<(string, string)>, parseTime: string -> Option<int>)
    requires RunReport(limit, files, parseTime).Success?
    ensures var t, all := RunReport(limit, files, parseTime).value, AllCounted(limit, files, parseTime);
      && t.exitNonzeroes + t.filteredRequests + t.totalRequests == LinesRead(files)
      && t.totalRequests == |all|
      && t.cacheHits + t.cacheMisses == t.totalRequests - FilesWithBaseline(limit, files, parseTime)
      && (limit == -1 ==> t.filteredRequests == 0)
      && t.exitNonzeroes == ClassCount(limit, files, NonZeroExit, parseTime)
      && t.filteredRequests == ClassCount(limit, files, Filtered, parseTime)
      && t.cacheHits == CacheHitsOf(limit, files, parseTime)
      && 0 <= t.largestStdout
      && Bounds(t.largestStdout, all)
      && (t.largestStdout == 0 || Attains(t.largestStdout, all))
      && t.stderrLens == StderrLensOf(all)
      && t.stdoutVariations == VaryingFiles(limit, files, parseTime)
  {
    assert RunReport(limit, files, parseTime) == ReportFrom(limit, files, Initial, parseTime);
    ReportCounts(limit, files, Initial, parseTime);
    ReportClasses(limit, files, Initial, parseTime);
    ReportHits(limit, files, Initial, parseTime);
    ReportLargest(limit, files, Initial, parseTime);
    ReportStderr(limit, files, Initial, parseTime);
    ReportVariations(limit, files, Initial, parseTime);
  }

  // ---------------------------------------------------------------------
  // `sorted(stderr_lens)` for the `stderr patterns` line.

  lemma {:induction false} HasLeast(s: set<int>)
    requires s != {}
    ensures exists m :: m in s && forall y :: y in s ==> m <= y
    decreases |s|
  {
    if forall y :: y !in s {
      assert false;
    }
    var x :| x in s;
    var rest := s - {x};
    assert s == rest + {x};
    var m := x;
    if rest != {} {
      HasLeast(rest);
      m :| m in rest && forall y :: y in rest ==> m <= y;
    }
    LeastOfAdded(rest, m, x);
    var least := if x < m then x else m;
    assert least in s && forall y :: y in s ==> least <= y;
  }

  /** Adding `x` to a set whose least element is `m` (or to the empty set, with `m == x`). */
  lemma LeastOfAdded(rest: set<int>, m: int, x: int)
    requires m in rest + {x} && forall y :: y in rest ==> m <= y
    ensures var least := if x < m then x else m;
      least in rest + {x} && forall y :: y in rest + {x} ==> least <= y
  {
  }

  /** The distinct stderr lengths in ascending order. */
  method SortedPatterns(lens: set<int>) returns (r: seq<int>)
    ensures forall i, j :: 0 <= i < j < |r| ==> r[i] < r[j]
    ensures forall x :: x in lens <==> x in r
  {
    r := [];
    var rest := lens;
    while rest != {}
      invariant forall x :: x in lens <==> x in r || x in rest
      invariant forall i, j :: 0 <= i < j < |r| ==> r[i] < r[j]
      invariant forall i, y :: 0 <= i < |r| && y in rest ==> r[i] < y
      decreases |rest|
    {
      HasLeast(rest);
      var m :| m in rest && forall y :: y in rest ==> m <= y;
      r := r + [m];
      rest := rest - {m};
    }
  }
}

=== FILE: round_trip.dfy ===
/**
 The log line main.go writes, read back by report.py. Every number main.go
 prints is read back as itself; the `exit=?` of a run error makes `int()`
 raise; the stdin length report.py derives is the flattened stdin's length
 plus 3 (it also counts the `"| "` before stdin and the space after it); and
 the second word report.py reads as the end time is the first word of the
 invocation, because main.go writes a single time stamp.
 */
module RoundTrip {
  import opened Common
  import opened GoStrings
  import opened PyStrings
  import opened Streams
  import opened Capture
  import opened LogParse

  // ---------------------------------------------------------------------
  // Numbers and words.

  lemma DigitCharValue(d: int)
    requires 0 <= d < 10
    ensures DigitChar(d) as int - '0' as int == d
  {
  }

  /** `int()` reads back what Go's `%d` wrote for a natural number. */
  lemma {:induction false} NatTextValue(n: nat)
    ensures DigitsValue(NatText(n)) == n
  {
    DigitCharValue(n % 10);
    if n >= 10 {
      var s := NatText(n);
      assert s[..|s| - 1] == NatText(n / 10);
      NatTextValue(n / 10);
    } else {
      assert NatText(n)[..0] == [];
    }
  }

  /** `int(str(n))`: Python reads back every integer Go's `%d` writes, sign included. */
  lemma DecimalRoundTrip(n: int)
    ensures PyInt(DecimalText(n)) == Some(n)
  {
    if n < 0 {
      NatTextValue(-n);
      NegatedDigits(NatText(-n));
    } else {
      NatTextValue(n);
    }
  }

  /** `int("-" + t)` for a run of digits `t`. */
  lemma NegatedDigits(t: string)
    requires AllDigits(t)
    ensures var v: int := DigitsValue(t); PyInt("-" + t) == Some(-v)
  {
    var s := "-" + t;
    assert s[0] == '-' && s[1..] == t;
  }

  /** Each string split at single spaces, the pieces strung together. */
  function SplitEach(xs: seq<string>): seq<string>
  {
    if |xs| == 0 then [] else Split(xs[0]) + SplitEach(xs[1..])
  }

  /** Splitting a space-join splits each element in place. */
  lemma {:induction false} SplitJoin(xs: seq<string>)
    requires |xs| > 0
    ensures Split(Join(xs, " ")) == SplitEach(xs)
  {
    if |xs| == 1 {
      assert SplitEach(xs) == Split(xs[0]) + SplitEach([]);
    } else {
      SplitAppend(xs[0], Join(xs[1..], " "));
      SplitJoin(xs[1..]);
    }
  }

  /** `" ".join(xs).split(" ") == xs` when no element holds a space. */
  lemma {:induction false} SplitJoinWords(xs: seq<string>)
    requires |xs| > 0
    requires forall i :: 0 <= i < |xs| ==> ' ' !in xs[i]
    ensures Split(Join(xs, " ")) == xs
  {
    SplitJoin(xs);
    SpaceFreeSplitEach(xs);
  }

  lemma {:induction false} SpaceFreeSplitEach(xs: seq<string>)
    requires forall i :: 0 <= i < |xs| ==> ' ' !in xs[i]
    ensures SplitEach(xs) == xs
  {
    if |xs| > 0 {
      SpaceFreeSplitEach(xs[1..]);
      assert [xs[0]] + xs[1..] == xs;
    }
  }

  /** The first word of a string, as `split(" ")[0]` gives it. */
  function FirstWord(s: string): string {
    Split(s)[0]
  }

  // ---------------------------------------------------------------------
  // Occurrences.

  /** A space-free pattern never straddles a space. */
  lemma StraddleFree(a: string, b: string, pat: string, j: int)
    requires ' ' !in pat
    requires OccursAt(a + " " + b, pat, j)
    ensures OccursAt(a, pat, j) || (j > |a| && OccursAt(b, pat, j - |a| - 1))
  {
    var s := a + " " + b;
    if j + |pat| <= |a| {
      assert s[j..j + |pat|] == a[j..j + |pat|];
    } else if j <= |a| {
      CharAt(s, pat, j, |a| - j);
      assert false;
    } else {
      assert s[j..j + |pat|] == b[j - |a| - 1..j - |a| - 1 + |pat|];
    }
  }

  lemma CharAt(s: string, pat: string, j: int, k: int)
    requires OccursAt(s, pat, j) && 0 <= k < |pat|
    ensures s[j + k] == pat[k]
  {
    assert s[j..j + |pat|][k] == s[j + k];
  }

  lemma AbsentAround(a: string, b: string, pat: string)
    requires ' ' !in pat
    requires !Contains(a, pat) && !Contains(b, pat)
    ensures !Contains(a + " " + b, pat)
  {
    if Contains(a + " " + b, pat) {
      var j :| 0 <= j <= |a + " " + b| && OccursAt(a + " " + b, pat, j);
      StraddleFree(a, b, pat, j);
    }
  }

  /** A one-character pattern occurs exactly where that character is. */
  lemma AbsentChar(s: string, c: char)
    requires c !in s
    ensures !Contains(s, [c])
  {
    forall j | 0 <= j <= |s|
      ensures !OccursAt(s, [c], j)
    {
      if j + 1 <= |s| {
        assert s[j..j + 1] == [s[j]];
      }
    }
  }

  /** A pattern whose first character is missing from `s` does not occur in it. */
  lemma AbsentHead(s: string, pat: string)
    requires |pat| > 0 && pat[0] !in s
    ensures !Contains(s, pat)
  {
  }

  // ---------------------------------------------------------------------
  // The record line as written.

  /** Text `int()` may be handed: decimal digits with an optional minus sign, or `?`. */
  predicate NumberLike(s: string) {
    |s| > 0 && forall i :: 0 <= i < |s| ==> IsDecimalDigit(s[i]) || s[i] == '-' || s[i] == '?'
  }

  lemma ExitTextShape(o: RunOutcome)
    ensures NumberLike(ExitText(o))
  {
  }

  /** The three counter words, joined. */
  function TailText(out: int, err: int, exit: string): string
  {
    "out=" + DecimalText(out) + " " + ("err=" + DecimalText(err) + " " + ("exit=" + exit))
  }

  /** The pieces `split(" ")` cuts the record text into. */
  lemma RecordParts(stamp: string, invocation: string, flat: string, out: int, err: int, exit: string)
    requires IsStamp(stamp) && NumberLike(exit)
    ensures var parts := Split(RecordText(stamp, invocation, flat, out, err, exit));
      var n := |parts|;
      && n >= 5
      && parts[0] == stamp
      && parts[1] == FirstWord(invocation)
      && parts[n - 3] == "out=" + DecimalText(out)
      && parts[n - 2] == "err=" + DecimalText(err)
      && parts[n - 1] == "exit=" + exit
  {
    var o, e, x := "out=" + DecimalText(out), "err=" + DecimalText(err), "exit=" + exit;
    assert ' ' !in stamp && ' ' !in o && ' ' !in e && ' ' !in x;
    SplitAppend(e, x);
    SplitAppend(o, e + " " + x);
    assert Split(TailText(out, err, exit)) == [o, e, x];
    SplitAppend(flat, TailText(out, err, exit));
    SplitAppend("|", flat + " " + TailText(out, err, exit));
    SplitAppend(invocation, "|" + " " + (flat + " " + TailText(out, err, exit)));
    SplitAppend(stamp, invocation + " " + ("|" + " " + (flat + " " + TailText(out, err, exit))));
  }

  /** A space-free pattern absent before a space and starting right after it is found there. */
  lemma FindAfterSpace(p: string, rest: string, pat: string)
    requires ' ' !in pat && !Contains(p, pat) && pat <= rest
    ensures Find(p + " " + rest, pat) == Some(|p| + 1)
  {
    var s := p + " " + rest;
    assert s[|p| + 1..|p| + 1 + |pat|] == rest[..|pat|];
    forall j | 0 <= j < |p| + 1
      ensures !OccursAt(s, pat, j)
    {
      if OccursAt(s, pat, j) {
        StraddleFree(p, rest, pat, j);
      }
    }
    FindsFirst(s, pat, |p| + 1);
  }

  /** `index("|")`: just after the invocation. */
  lemma RecordBar(stamp: string, invocation: string, flat: string, out: int, err: int, exit: string)
    requires IsStamp(stamp) && '|' !in invocation
    ensures Find(RecordText(stamp, invocation, flat, out, err, exit), "|") == Some(|stamp| + |invocation| + 2)
  {
    var a := stamp + " " + invocation;
    var rest := "|" + " " + (flat + " " + TailText(out, err, exit));
    assert RecordText(stamp, invocation, flat, out, err, exit) == a + " " + rest;
    AbsentChar(stamp, '|');
    AbsentChar(invocation, '|');
    AbsentAround(stamp, invocation, "|");
    FindAfterSpace(a, rest, "|");
  }

  /** Nothing before the counters reads `out=`. */
  lemma PrefixHasNoOut(stamp: string, invocation: string, flat: string)
    requires IsStamp(stamp) && !Contains(invocation, "out=") && !Contains(flat, "out=")
    ensures !Contains(stamp + " " + (invocation + " " + ("|" + " " + flat)), "out=")
  {
    AbsentHead(stamp, "out=");
    AbsentHead("|", "out=");
    AbsentAround("|", flat, "out=");
    AbsentAround(invocation, "|" + " " + flat, "out=");
    AbsentAround(stamp, invocation + " " + ("|" + " " + flat), "out=");
  }

  /** `index("out=")`: just after the flattened stdin. */
  lemma RecordOut(stamp: string, invocation: string, flat: string, out: int, err: int, exit: string)
    requires IsStamp(stamp) && !Contains(invocation, "out=") && !Contains(flat, "out=")
    ensures Find(RecordText(stamp, invocation, flat, out, err, exit), "out=")
      == Some(|stamp| + |invocation| + |flat| + 5)
  {
    var p := stamp + " " + (invocation + " " + ("|" + " " + flat));
    var rest := TailText(out, err, exit);
    assert RecordText(stamp, invocation, flat, out, err, exit) == p + " " + rest;
    assert |p| == |stamp| + |invocation| + |flat| + 4;
    PrefixHasNoOut(stamp, invocation, flat);
    TailStartsWithOut(out, err, exit);
    FindAfterSpace(p, rest, "out=");
  }

  /** The counters begin with `out=`. */
  lemma TailStartsWithOut(out: int, err: int, exit: string)
    ensures "out=" <= TailText(out, err, exit)
  {
    var t := TailText(out, err, exit);
    assert t[..4] == "out=";
  }

  /** `int(token.replace(prefix, ""))` on a token main.go wrote. */
  lemma FieldOf(prefix: string, text: string)
    requires |prefix| > 0 && NumberLike(text) && !IsDecimalDigit(prefix[0]) && prefix[0] != '-' && prefix[0] != '?'
    ensures Field(prefix + text, prefix) == (match PyInt(text) case Some(v) => Success(v) case None => Failure(ValueError))
  {
    var s := prefix + text;
    assert s[..|prefix|] == prefix;
    assert s[|prefix|..] == text;
    RemoveAllAbsent(text, prefix);
  }

  lemma QuestionMarkRaises()
    ensures PyInt("?") == None
  {
    var q := "?";
    assert q[0] == '?' && !IsDecimalDigit(q[0]);
    assert !AllDigits(q);
  }

  /** The three counter words read back: the counts, and the status or a ValueError. */
  lemma CounterFields(out: int, err: int, o: RunOutcome)
    ensures Field("out=" + DecimalText(out), "out=") == Success(out)
    ensures Field("err=" + DecimalText(err), "err=") == Success(err)
    ensures Field("exit=" + ExitText(o), "exit=")
      == if o.OtherError? then Failure(ValueError) else Success(ExitStatus(o))
  {
    ExitTextShape(o);
    FieldOf("out=", DecimalText(out));
    FieldOf("err=", DecimalText(err));
    FieldOf("exit=", ExitText(o));
    DecimalRoundTrip(out);
    DecimalRoundTrip(err);
    if o.OtherError? {
      QuestionMarkRaises();
    } else if o.ExitError? {
      DecimalRoundTrip(o.code);
    } else {
      DecimalRoundTrip(0);
    }
  }

  /** What `parseLine` looks at in a line: the pieces, the two indices and the counter fields. */
  predicate Readable(line: string, first: string, second: string, bar: nat, outAt: nat,
                     out: int, err: int, exit: Result<int, PyError>)
  {
    var parts := Split(line);
    var n := |parts|;
    && n >= 3 && parts[0] == first && parts[1] == second
    && Find(line, "|") == Some(bar) && Find(line, "out=") == Some(outAt)
    && Field(parts[n - 3], "out=") == Success(out)
    && Field(parts[n - 2], "err=") == Success(err)
    && Field(parts[n - 1], "exit=") == exit
  }

  /** `parseLine` once what it looks at is known. */
  lemma ParseLineWhen(line: string, parseTime: string -> Option<int>, first: string, second: string,
                      bar: nat, outAt: nat, out: int, err: int, exit: Result<int, PyError>)
    requires Readable(line, first, second, bar, outAt, out, err, exit)
    ensures ParseLine(line, parseTime) == Expected(parseTime(first), parseTime(second), outAt - bar, out, err, exit)
  {
  }

  /** What `parseLine` gives for the two time words' values, the stdin length and the counter fields. */
  function Expected(start: Option<int>, end: Option<int>, stdinLen: int, out: int, err: int,
                    exit: Result<int, PyError>): Result<LogRecord, PyError>
  {
    if start.None? || end.None? || exit.Failure? then Failure(ValueError)
    else Success(LogRecord(start.value, end.value, stdinLen, out, err, exit.value))
  }

  /** What `parseLine` looks at in a record main.go wrote. */
  lemma RecordReadable(stamp: string, invocation: string, flat: string, out: int, err: int, exit: string)
    requires IsStamp(stamp) && '|' !in invocation && NumberLike(exit)
    requires !Contains(invocation, "out=") && !Contains(flat, "out=")
    ensures Readable(RecordText(stamp, invocation, flat, out, err, exit), stamp, FirstWord(invocation),
                     |stamp| + |invocation| + 2, |stamp| + |invocation| + |flat| + 5,
                     out, err, Field("exit=" + exit, "exit="))
  {
    RecordParts(stamp, invocation, flat, out, err, exit);
    RecordBar(stamp, invocation, flat, out, err, exit);
    RecordOut(stamp, invocation, flat, out, err, exit);
    CounterFields(out, err, Succeeded);
  }

  /** What `int()` makes of the exit text: the wrapper's status, or a ValueError for `?`. */
  function ExitField(o: RunOutcome): Result<int, PyError> {
    if o.OtherError? then Failure(ValueError) else Success(ExitStatus(o))
  }

  /** `parseLine` on any line that reads like a record main.go wrote. */
  lemma ReadLine(line: string, stamp: string, invocation: string, flat: string, out: int, err: int,
                 o: RunOutcome, parseTime: string -> Option<int>)
    requires Readable(line, stamp, FirstWord(invocation), |stamp| + |invocation| + 2,
                      |stamp| + |invocation| + |flat| + 5, out, err, ExitField(o))
    ensures ParseLine(line, parseTime)
      == Expected(parseTime(stamp), parseTime(FirstWord(invocation)), |flat| + 3, out, err, ExitField(o))
  {
    ParseLineWhen(line, parseTime, stamp, FirstWord(invocation), |stamp| + |invocation| + 2,
                  |stamp| + |invocation| + |flat| + 5, out, err, ExitField(o));
  }

  lemma ReadRecord(stamp: string, invocation: string, flat: string, out: int, err: int, o: RunOutcome,
                   parseTime: string -> Option<int>)
    requires IsStamp(stamp) && '|' !in invocation
    requires !Contains(invocation, "out=") && !Contains(flat, "out=")
    ensures ParseLine(RecordText(stamp, invocation, flat, out, err, ExitText(o)), parseTime)
      == Expected(parseTime(stamp), parseTime(FirstWord(invocation)), |flat| + 3, out, err, ExitField(o))
  {
    ExitTextShape(o);
    CounterFields(out, err, o);
    RecordReadable(stamp, invocation, flat, out, err, ExitText(o));
    ReadLine(RecordText(stamp, invocation, flat, out, err, ExitText(o)), stamp, invocation, flat, out, err, o, parseTime);
  }

  /**
   `parseLine` on a record main.go wrote: a ValueError unless both the time
   stamp and the invocation's first word parse as times, a ValueError for
   `exit=?`, and otherwise the counts and exit status main.go had, with a
   stdin length 3 more than the flattened stdin's.
   */
  lemma ParseRecord(stamp: string, invocation: string, flat: string, out: int, err: int, o: RunOutcome,
                    parseTime: string -> Option<int>)
    requires IsStamp(stamp) && '|' !in invocation
    requires !Contains(invocation, "out=") && !Contains(flat, "out=")
    ensures var r := ParseLine(RecordText(stamp, invocation, flat, out, err, ExitText(o)), parseTime);
      && (parseTime(stamp).None? || parseTime(FirstWord(invocation)).None? ==> r == Failure(ValueError))
      && (parseTime(stamp).Some? && parseTime(FirstWord(invocation)).Some? ==>
            r == if o.OtherError? then Failure(ValueError)
                 else Success(LogRecord(parseTime(stamp).value, parseTime(FirstWord(invocation)).value,
                                        |flat| + 3, out, err, ExitStatus(o))))
  {
    ReadRecord(stamp, invocation, flat, out, err, o, parseTime);
  }

  // ---------------------------------------------------------------------
  // Records in a capture file.

  /** A line `readline().rstrip()` hands back unchanged and whole. */
  predicate OneLine(s: string) {
    |s| > 0 && RStrip(s) == s && '\n' !in s && '\r' !in s
  }

  lemma AppendLast(a: string, b: string)
    requires |b| > 0
    ensures (a + b)[|a + b| - 1] == b[|b| - 1]
  {
  }

  /** A line whose last character is not white space is not stripped. */
  lemma RStripKeeps(s: string)
    requires |s| > 0 && !IsPySpace(s[|s| - 1])
    ensures RStrip(s) == s
  {
  }

  /** Flattening only turns newlines into spaces: no other character appears or disappears. */
  lemma FlattenKeeps(s: string, c: char)
    requires c != ' ' && c != '\n'
    ensures c in Flatten(s) <==> c in s
  {
    if c in Flatten(s) {
      var i :| 0 <= i < |s| && Flatten(s)[i] == c;
    }
    if c in s {
      var i :| 0 <= i < |s| && s[i] == c;
      assert Flatten(s)[i] == c;
    }
  }

  /** The record ends with the last character of its exit text. */
  lemma RecordLast(stamp: string, invocation: string, flat: string, out: int, err: int, exit: string)
    requires |exit| > 0
    ensures var r := RecordText(stamp, invocation, flat, out, err, exit); r[|r| - 1] == exit[|exit| - 1]
  {
    var e := "exit=" + exit;
    var t2 := "err=" + DecimalText(err) + " " + e;
    var t1 := "out=" + DecimalText(out) + " " + t2;
    var f := flat + " " + t1;
    var b := "|" + " " + f;
    var i := invocation + " " + b;
    AppendLast("exit=", exit);
    AppendLast("err=" + DecimalText(err) + " ", e);
    AppendLast("out=" + DecimalText(out) + " ", t2);
    AppendLast(flat + " ", t1);
    AppendLast("|" + " ", f);
    AppendLast(invocation + " ", b);
    AppendLast(stamp + " ", i);
  }

  /** A record holds a line break only where its invocation or stdin does. */
  lemma RecordBreaks(stamp: string, invocation: string, flat: string, out: int, err: int, exit: string, c: char)
    requires IsStamp(stamp) && NumberLike(exit) && (c == '\n' || c == '\r')
    ensures c in RecordText(stamp, invocation, flat, out, err, exit) <==> c in invocation || c in flat
  {
    NoBreakIn(DecimalText(out), c);
    NoBreakIn(DecimalText(err), c);
    NoBreakIn(exit, c);
    assert c !in stamp;
    var e := "exit=" + exit;
    var t2 := "err=" + DecimalText(err) + " " + e;
    var t1 := "out=" + DecimalText(out) + " " + t2;
    assert c !in e;
    assert c !in t2;
    assert c !in t1;
  }

  lemma NoBreakIn(s: string, c: char)
    requires forall i :: 0 <= i < |s| ==> IsDecimalDigit(s[i]) || s[i] == '-' || s[i] == '?'
    requires c == '\n' || c == '\r'
    ensures c !in s
  {
  }

  /**
   A record is one line of the file when neither the invocation nor stdin
   holds a carriage return and the invocation holds no newline (stdin's
   newlines were flattened).
   */
  lemma RecordIsOneLine(stamp: string, invocation: string, stdin: string, out: int, err: int, o: RunOutcome)
    requires IsStamp(stamp)
    requires '\n' !in invocation && '\r' !in invocation && '\r' !in stdin
    ensures OneLine(RecordText(stamp, invocation, Flatten(stdin), out, err, ExitText(o)))
  {
    var exit := ExitText(o);
    ExitTextShape(o);
    RecordLast(stamp, invocation, Flatten(stdin), out, err, exit);
    RStripKeeps(RecordText(stamp, invocation, Flatten(stdin), out, err, exit));
    FlattenKeeps(stdin, '\r');
    RecordBreaks(stamp, invocation, Flatten(stdin), out, err, exit, '\n');
    RecordBreaks(stamp, invocation, Flatten(stdin), out, err, exit, '\r');
  }

  /** A line and its newline are read back as that one line. */
  lemma LineReadsBack(s: string)
    requires OneLine(s)
    ensures FileLines(s + "\n") == [s]
  {
    SplitLineOf(s, "");
    assert s + "\n" + "" == s + "\n";
  }

  /**
   What a capture file holds after runs appended their records, read back by
   report.py: exactly those records, in order.
   */
  lemma FileReadsBack(records: seq<string>)
    requires forall i :: 0 <= i < |records| ==> OneLine(records[i])
    ensures FileLines(Concat(Terminated(records))) == records
  {
    FileLinesOfWritten(records);
  }

  /**
   An invocation line and stdin whose record report.py reads back as written:
   no `|` or line break in the invocation, no carriage return in stdin, and
   no `out=` in the invocation or the flattened stdin.
   */
  predicate Recordable(invocation: string, stdin: string) {
    && '|' !in invocation && '\n' !in invocation && '\r' !in invocation && !Contains(invocation, "out=")
    && '\r' !in stdin && !Contains(Flatten(stdin), "out=")
  }

  /**
   A log line main.go wrote, read back: one line for report.py, which
   `parseLine` reads with the start time from the stamp, the "end time" from
   the command's first word, a stdin length 3 more than the stdin's, and the
   logged counts and exit status, or a ValueError.
   */
  lemma LogLineReadsBack(stamp: string, invocation: string, stdin: string, out: int, err: int, o: RunOutcome,
                         parseTime: string -> Option<int>)
    requires IsStamp(stamp) && Recordable(invocation, stdin)
    ensures FileLines(LogLine(stamp, invocation, Flatten(stdin), out, err, ExitText(o)))
      == [RecordText(stamp, invocation, Flatten(stdin), out, err, ExitText(o))]
    ensures ParseLine(RecordText(stamp, invocation, Flatten(stdin), out, err, ExitText(o)), parseTime)
      == Expected(parseTime(stamp), parseTime(FirstWord(invocation)), |stdin| + 3, out, err, ExitField(o))
  {
    LogLineIsOneLine(stamp, invocation, stdin, out, err, o);
    ReadFlattened(stamp, invocation, stdin, out, err, o, parseTime);
  }

  /** `parseLine` on a record with flattened stdin counts 3 more than stdin's length. */
  lemma ReadFlattened(stamp: string, invocation: string, stdin: string, out: int, err: int, o: RunOutcome,
                      parseTime: string -> Option<int>)
    requires IsStamp(stamp) && '|' !in invocation
    requires !Contains(invocation, "out=") && !Contains(Flatten(stdin), "out=")
    ensures ParseLine(RecordText(stamp, invocation, Flatten(stdin), out, err, ExitText(o)), parseTime)
      == Expected(parseTime(stamp), parseTime(FirstWord(invocation)), |stdin| + 3, out, err, ExitField(o))
  {
    ReadRecordOfLength(stamp, invocation, Flatten(stdin), |stdin|, out, err, o, parseTime);
  }

  /** `ReadRecord` with the stdin length named apart from the text. */
  lemma ReadRecordOfLength(stamp: string, invocation: string, flat: string, len: int, out: int, err: int,
                           o: RunOutcome, parseTime: string -> Option<int>)
    requires IsStamp(stamp) && '|' !in invocation && len == |flat|
    requires !Contains(invocation, "out=") && !Contains(flat, "out=")
    ensures ParseLine(RecordText(stamp, invocation, flat, out, err, ExitText(o)), parseTime)
      == Expected(parseTime(stamp), parseTime(FirstWord(invocation)), len + 3, out, err, ExitField(o))
  {
    ReadRecord(stamp, invocation, flat, out, err, o, parseTime);
  }

  /** A log line main.go wrote is read back by report.py as its record, alone. */
  lemma LogLineIsOneLine(stamp: string, invocation: string, stdin: string, out: int, err: int, o: RunOutcome)
    requires IsStamp(stamp)
    requires '\n' !in invocation && '\r' !in invocation && '\r' !in stdin
    ensures FileLines(LogLine(stamp, invocation, Flatten(stdin), out, err, ExitText(o)))
      == [RecordText(stamp, invocation, Flatten(stdin), out, err, ExitText(o))]
  {
    var record := RecordText(stamp, invocation, Flatten(stdin), out, err, ExitText(o));
    RecordIsOneLine(stamp, invocation, stdin, out, err, o);
    LineReadsBack(record);
  }

  /** The same for the record of any capture made the way `runcmd` makes one. */
  lemma CaptureLineReadsBack(c: Run, args: seq<string>, stamp: string, parseTime: string -> Option<int>)
    requires c.line == LogLine(stamp, InvocationText(args), Flatten(c.childStdin),
                               WrapInt64(|c.liveStdout|), WrapInt64(|c.liveStderr|), ExitText(c.run.outcome))
    requires IsStamp(stamp) && Recordable(InvocationText(args), c.childStdin)
    ensures var lines := FileLines(c.line);
      && |lines| == 1
      && ParseLine(lines[0], parseTime)
           == Expected(parseTime(stamp), parseTime(FirstWord(InvocationText(args))), |c.childStdin| + 3,
                       WrapInt64(|c.liveStdout|), WrapInt64(|c.liveStderr|), ExitField(c.run.outcome))
  {
    LogLineReadsBack(stamp, InvocationText(args), c.childStdin, WrapInt64(|c.liveStdout|),
                     WrapInt64(|c.liveStderr|), c.run.outcome, parseTime);
  }

  /** The same for a whole wrapped run. */
  lemma CaptureReadsBack(args: seq<string>, stdin: seq<string>, child: string -> ChildRun, stamp: string,
                         sha: string -> Digest, parseTime: string -> Option<int>)
    requires IsStamp(stamp) && Recordable(InvocationText(args), Concat(stdin))
    ensures var c, inv := RunCmd(args, stdin, child, stamp, sha), InvocationText(args);
      var lines := FileLines(c.line);
      && |lines| == 1
      && ParseLine(lines[0], parseTime)
           == Expected(parseTime(stamp), parseTime(FirstWord(inv)), |c.childStdin| + 3,
                       WrapInt64(|c.liveStdout|), WrapInt64(|c.liveStderr|), ExitField(c.run.outcome))
  {
    CaptureLineReadsBack(RunCmd(args, stdin, child, stamp, sha), args, stamp, parseTime);
  }

  /** A carriage return ends the line: what precedes it is read, what follows is not. */
  lemma {:induction false} SplitLineAtReturn(line: string, rest: string)
    requires '\n' !in line && '\r' !in line && (|rest| == 0 || rest[0] != '\n')
    ensures SplitLine(line + "\r" + rest) == (line, rest)
  {
    if |line| > 0 {
      assert (line + "\r" + rest)[1..] == line[1..] + "\r" + rest;
      SplitLineAtReturn(line[1..], rest);
      assert [line[0]] + line[1..] == line;
    } else {
      assert (line + "\r" + rest)[1..] == rest;
    }
  }

  lemma ReturnInFlat(stamp: string, invocation: string, before: string, after: string, counters: string)
    ensures stamp + " " + (invocation + " " + ("|" + " " + ((before + "\r" + after) + " " + counters))) + "\n"
      == (stamp + " " + (invocation + " " + ("|" + " " + before))) + "\r" + (after + " " + counters + "\n")
  {
  }

  /** With stdin `"a\rb"`, the first line read from the record ends at the `a`. */
  lemma ReturnEndsFirstLine(stamp: string, invocation: string, out: int, err: int, exit: string)
    requires IsStamp(stamp) && '\n' !in invocation && '\r' !in invocation
    ensures var lines := FileLines(LogLine(stamp, invocation, Flatten("a\rb"), out, err, exit));
      |lines| > 0 && lines[0] == stamp + " " + (invocation + " " + ("|" + " " + "a"))
  {
    var counters := "out=" + DecimalText(out) + " " + ("err=" + DecimalText(err) + " " + ("exit=" + exit));
    var pre := stamp + " " + (invocation + " " + ("|" + " "));
    var first := stamp + " " + (invocation + " " + ("|" + " " + "a"));
    var rest := "b" + " " + counters + "\n";
    assert LogLine(stamp, invocation, Flatten("a\rb"), out, err, exit) == first + "\r" + rest by {
      assert Flatten("a\rb") == "a" + "\r" + "b";
      ReturnInFlat(stamp, invocation, "a", "b", counters);
    }
    assert first == pre + "a";
    AppendLast(pre, "a");
    RStripKeeps(first);
    HeadBreakFree(stamp, invocation, "a", '\n');
    HeadBreakFree(stamp, invocation, "a", '\r');
    ReadsFirstLine(first, rest);
  }

  /** The record's head up to some stdin text has no line break of its own. */
  lemma HeadBreakFree(stamp: string, invocation: string, tail: string, c: char)
    requires IsStamp(stamp) && (c == '\n' || c == '\r') && c !in invocation && c !in tail
    ensures c !in stamp + " " + (invocation + " " + ("|" + " " + tail))
  {
    assert c !in stamp;
  }

  /** A line ended by a carriage return is the first line read. */
  lemma ReadsFirstLine(first: string, rest: string)
    requires '\n' !in first && '\r' !in first && (|rest| == 0 || rest[0] != '\n')
    requires |first| > 0 && RStrip(first) == first
    ensures var lines := FileLines(first + "\r" + rest);
      |lines| > 0 && lines[0] == first
  {
    SplitLineAtReturn(first, rest);
  }

  /** Without `out=`, `parseLine` raises a ValueError on a line of two or more pieces. */
  lemma ParseWithoutOut(line: string, parseTime: string -> Option<int>)
    requires |Split(line)| >= 2 && !Contains(line, "out=")
    ensures ParseLine(line, parseTime) == Failure(ValueError)
  {
  }

  /**
   A carriage return in stdin survives flattening and splits the record for
   report.py: with stdin `"a\rb"` the first line read ends at `a`, before any
   counter, and parsing it raises a ValueError.
   */
  lemma CarriageReturnBreaksRecord(stamp: string, invocation: string, stdin: string, out: int, err: int,
                                   exit: string, parseTime: string -> Option<int>)
    requires stdin == "a\rb"
    requires IsStamp(stamp) && '\n' !in invocation && '\r' !in invocation && !Contains(invocation, "out=")
    ensures var first, lines := stamp + " " + (invocation + " " + ("|" + " " + "a")),
                                FileLines(LogLine(stamp, invocation, Flatten(stdin), out, err, exit));
      && |lines| > 0 && lines[0] == first
      && ParseLine(first, parseTime) == Failure(ValueError)
  {
    var tail := invocation + " " + ("|" + " " + "a");
    ReturnEndsFirstLine(stamp, invocation, out, err, exit);
    AbsentHead("a", "out=");
    PrefixHasNoOut(stamp, invocation, "a");
    SplitAppend(stamp, tail);
    ParseWithoutOut(stamp + " " + tail, parseTime);
  }
}

=== FILE: streams.dfy ===
/**
 The stream plumbing of main.go that carries data rather than talks to the
 operating system: the byte-counting `WriteCounter`, `io.MultiWriter` over
 sinks that never fail, and `io.Copy` of a chunked source into such a tee.
 The chunking of a source is an input: it is whatever sizes the reads return.
 */
module Streams {
  import opened Common

  const TWO_63: int := 0x8000_0000_0000_0000
  const TWO_64: int := 0x1_0000_0000_0000_0000

  /**
   Go's `int64` arithmetic: the integer in [-2^63, 2^63) that is congruent
   to `x` modulo 2^64 (two's-complement wrap-around).
   */
  function WrapInt64(x: int): (r: int)
    ensures -TWO_63 <= r < TWO_63
    ensures (x - r) % TWO_64 == 0
    ensures -TWO_63 <= x < TWO_63 ==> r == x
  {
    (x + TWO_63) % TWO_64 - TWO_63
  }

  /** Wrapping an intermediate sum does not change the wrapped final sum. */
  lemma WrapAdd(x: int, y: int)
    ensures WrapInt64(WrapInt64(x) + y) == WrapInt64(x + y)
  {
    var a := x + TWO_63;
    var q := a / TWO_64;
    assert a == q * TWO_64 + a % TWO_64;
    ModShift(a % TWO_64 + y, q);
    assert a + y == (a % TWO_64 + y) + q * TWO_64;
  }

  lemma ModShift(z: int, q: int)
    ensures (z + q * TWO_64) % TWO_64 == z % TWO_64
  {
    var m := z % TWO_64;
    var k := z / TWO_64;
    assert z == k * TWO_64 + m;
    assert z + q * TWO_64 == (k + q) * TWO_64 + m;
  }

  /** main.go's `WriteCounter`: `Total` is the number of bytes written to it. */
  datatype WriteCounter = WriteCounter(total: int)

  /** What `Write` returns: the updated writer, the count `n` and the error. */
  datatype WriteReturn<S> = WriteReturn(writer: S, n: int, err: Option<string>)

  /**
   `WriteCounter.Write(p)`: always accepts the whole slice without error and
   adds its length to `Total` (an `int64`).
   */
  function CounterWrite<T>(wc: WriteCounter, p: seq<T>): (r: WriteReturn<WriteCounter>)
    ensures r.n == |p| && r.err == None
    ensures -TWO_63 <= wc.total && wc.total + |p| < TWO_63 ==> r.writer.total == wc.total + |p|
    ensures -TWO_63 <= r.writer.total < TWO_63
    ensures (wc.total + |p| - r.writer.total) % TWO_64 == 0
  {
    WriteReturn(WriteCounter(WrapInt64(wc.total + |p|)), |p|, None)
  }

  /**
   One destination of a tee: an in-memory buffer (`bytes.Buffer`, the
   digest's input, or the live terminal seen as the bytes it received), or
   a `WriteCounter`.
   */
  datatype Sink<T> = Buffer(data: seq<T>) | Counter(wc: WriteCounter)

  /** A counter's total is an `int64`. */
  predicate Representable<T>(s: Sink<T>) {
    s.Counter? ==> -TWO_63 <= s.wc.total < TWO_63
  }

  function SinkWrite<T>(s: Sink<T>, p: seq<T>): (r: WriteReturn<Sink<T>>)
    ensures r.n == |p| && r.err == None
    ensures s.Buffer? ==> r.writer == Buffer(s.data + p)
    ensures s.Counter? ==> r.writer.Counter? && r.writer.wc.total == WrapInt64(s.wc.total + |p|)
    ensures Representable(r.writer)
  {
    match s
    case Buffer(d) => WriteReturn(Buffer(d + p), |p|, None)
    case Counter(wc) =>
      var w := CounterWrite(wc, p);
      WriteReturn(Counter(w.writer), w.n, w.err)
  }

  /**
   `io.MultiWriter(...).Write(p)`: writes `p` to each sink in order. The
   Go code stops at the first sink that errs or writes short; `SinkWrite`
   never does either, so every sink receives all of `p` and that stop is
   not modelled.
   */
  function MultiWrite<T>(sinks: seq<Sink<T>>, p: seq<T>): (r: seq<Sink<T>>)
    ensures |r| == |sinks|
    ensures forall i :: 0 <= i < |sinks| ==> r[i] == SinkWrite(sinks[i], p).writer
  {
    if |sinks| == 0 then []
    else
      [SinkWrite(sinks[0], p).writer] + MultiWrite(sinks[1..], p)
  }

  /** Writing `a` and then `b` to a sink leaves it as writing `a + b` once. */
  lemma SinkWriteTwice<T>(s: Sink<T>, a: seq<T>, b: seq<T>)
    ensures SinkWrite(SinkWrite(s, a).writer, b).writer == SinkWrite(s, a + b).writer
  {
    if s.Counter? {
      WrapAdd(s.wc.total + |a|, |b|);
      WrapAdd(s.wc.total, |a| + |b|);
    } else {
      assert s.data + a + b == s.data + (a + b);
    }
  }

  /**
   `io.Copy(io.MultiWriter(sinks...), src)` where `src` delivers `chunks`:
   whatever the chunking, every sink ends as if it had been handed the whole
   stream in one write.
   */
  function Copy<T>(sinks: seq<Sink<T>>, chunks: seq<seq<T>>): (r: seq<Sink<T>>)
    requires forall i :: 0 <= i < |sinks| ==> Representable(sinks[i])
    ensures |r| == |sinks|
    ensures forall i :: 0 <= i < |sinks| ==> r[i] == SinkWrite(sinks[i], Concat(chunks)).writer
    decreases |chunks|
  {
    if |chunks| == 0 then
      assert forall i :: 0 <= i < |sinks| ==> SinkWrite(sinks[i], []).writer == sinks[i] by {
        forall i | 0 <= i < |sinks|
          ensures SinkWrite(sinks[i], []).writer == sinks[i]
        {
          if sinks[i].Buffer? {
            assert sinks[i].data + [] == sinks[i].data;
          } else {
            assert Representable(sinks[i]);
            assert SinkWrite(sinks[i], []).writer.wc == sinks[i].wc;
          }
        }
      }
      sinks
    else
      var next := MultiWrite(sinks, chunks[0]);
      var r := Copy(next, chunks[1..]);
      assert forall i :: 0 <= i < |sinks| ==> r[i] == SinkWrite(sinks[i], Concat(chunks)).writer by {
        forall i | 0 <= i < |sinks|
          ensures r[i] == SinkWrite(sinks[i], Concat(chunks)).writer
        {
          SinkWriteTwice(sinks[i], chunks[0], Concat(chunks[1..]));
        }
      }
      r
  }
}
